=== FILE: README.md ===
# fast-feet-api: package lifecycle, validators and event dispatch in Dafny

This project models the core of the fast-feet delivery backend:

- the package status state machine: ten statuses, the `VALID_TRANSITIONS` table, result-returning `create`/`transitionTo`, and `isFinalState`;
- the ULID-style package code: the Crockford Base32 timestamp encoder `generateULID`, the decoder `decodeTime`, and the validator (pattern plus "not in the future");
- the value-object validators:
  - the Brazilian CPF mod-11 check digits;
  - the CEP pattern (5 digits, optional hyphen, 3 digits), used by both `PostalCode` and `PostCode`;
- the `Package` aggregate as written in `package.ts`, and the `PackageHistory` record;
- the process-wide `DomainEvents` dispatcher;
- the `Either` result type;
- the three use cases that drive a package: register a package, assign it to a delivery person, record a history entry;
- the two send-notification subscribers.

Everything is immutable. An operation that mutates an object in the source is a function that returns the new value. An operation that can fail returns `Either`. JavaScript `null` is `Core.Option`.

Ids are strings compared by value. `UniqueEntityId.equals` compares string values, and the dispatcher finds marked entities that way. `Entity.equals` instead compares the two id objects by reference; "## Left out" says where the model differs. Timestamps are natural numbers of milliseconds.

The clock, `Math.random` and fresh-id generation are not modelled. Their values are passed in as parameters:

- `clock` is the `Date.now()` read by `generateULID`;
- `now` is the one read by `validate`, or the `new Date()` of a factory;
- `random` holds the 16 random Base32 digits;
- `newId`, `freshId` and the history ids are the fresh ids.

The dispatcher's two static tables and its `shouldRun` switch form one `DomainEvents.Bus` value. Handlers are opaque values, and invoking a handler is recorded as a `Call` in a trace. The notification module then gives each call of a subscriber's handler its meaning: the notification it sends.

Two versions of `Package` exist in the repository:

- `Package` is the version in `package.ts`. Its `updateStatus` relies on a throwing `transitionTo`, and the model turns the throw into a `Left` that leaves the package unchanged.
- `PackageAggregate` is the newer version that the use cases and the subscribers call. Its own source is not part of this model, so its behaviour is fixed from its call sites and tests. It returns a result from `updateStatus(status, authorId)`, records histories, and raises events. `PackageAggregate.UpdateStatusAgreesWithDraft` and `PackageAggregate.AssignAgreesWithDraft` prove that it agrees with `package.ts` on every field the two share.

Repositories are sets and maps. Each write is appended to a log (`UseCases.Repos.writes`), so "written once, and only on success" can be stated.

The model does not claim that the shown in-memory packages repository dispatches events: it does not. The subscriber tests, however, expect a notification after `packagesRepository.register`/`update`. `Notifications.Persist` models a save that dispatches the saved package's events.

Modelling observations:

- `register-package.ts` treats an empty-string `deliveryPersonId` as absent, because it is falsy. It skips the lookup and stores `null` (`UseCases.NoDeliveryPersonNeverFails`).
- `register-package.ts` never calls `markAsRegistered`, so registering through the use case raises no event and sends no notification (`Flows.RegisterPackageSendsNothing`).
- `Package.create` in `package.ts` always nulls `deliveredAt`. A package created directly in the delivered status therefore breaks "`deliveredAt` is set exactly when delivered" (`Package.CreateDeliveredLosesDeliveredAt`). The invariant holds for every other package and is preserved by every method (`Package.RunPreservesConsistency`).

## Model

| member | source | states |
|---|---|---|
| Either.MakeLeft | src/core/either.ts:74-76 | `left(v)` answers `isLeft` true and `isRight` false, and holds `v` unchanged |
| Either.MakeRight | src/core/either.ts:85-87 | `right(v)` answers `isRight` true and `isLeft` false, and holds `v` unchanged |
| Either.ExactlyOneArm | src/core/either.ts:65 | every result is exactly one of left and right |
| PackageStatus.NamesAreDistinct | src/domain/delivery/enterprise/entities/value-object/package-status.ts:5-15 | the ten status names are pairwise different |
| PackageStatus.Position | src/domain/delivery/enterprise/entities/value-object/package-status.ts:22-33 | every status appears in `VALID_STATUSES` |
| PackageStatus.Lookup | src/domain/delivery/enterprise/entities/value-object/package-status.ts:53-57 | the `includes` scan finds a status with the given name, or proves that no remaining entry has it |
| PackageStatus.Create | src/domain/delivery/enterprise/entities/value-object/package-status.ts:59-67 | succeeds with the status of that name, or fails with `InvalidatePackageStatusError` exactly when no status has that name |
| PackageStatus.CreateName | src/domain/delivery/enterprise/entities/value-object/package-status.ts:59-67 | round trip: creating from a status's own name gives that status |
| PackageStatus.CreateEmptyFails | src/domain/delivery/enterprise/entities/value-object/package-status.ts:53-67 | the empty string is rejected |
| PackageStatus.TransitionTo | src/domain/delivery/enterprise/entities/value-object/package-status.ts:69-82 | succeeds iff the target is in the source's row, and then returns the target itself; otherwise `InvalidatePackageStatusError` |
| PackageStatus.NoSelfLoops | src/domain/delivery/enterprise/entities/value-object/package-status.ts:35-47 | no status may transition to itself |
| PackageStatus.FinalIffEmptyRow | src/domain/delivery/enterprise/entities/value-object/package-status.ts:124-126 | `isFinalState` holds exactly for the statuses with an empty row, i.e. those with no legal move |
| PackageStatus.Predicates | src/domain/delivery/enterprise/entities/value-object/package-status.ts:84-122 | the ten `is*` answers of a status: entry i holds exactly when the status is the i-th status of the table |
| PackageStatus.ExactlyOnePredicate | src/domain/delivery/enterprise/entities/value-object/package-status.ts:84-122 | for every status exactly one of the ten `is*` predicates holds |
| PackageStatus.CancelReachability | src/domain/delivery/enterprise/entities/value-object/package-status.ts:37-43 | canceled is one step from every non-final status except failed_delivery, which can only go to out_for_delivery or returned |
| PackageStatus.TestedTransitions | src/domain/delivery/enterprise/entities/value-object/package-status.spec.ts:89-129 | in_transit→at_distribution_center and failed_delivery→out_for_delivery are legal; pending→delivered and delivered→pending are not |
| PackageStatus.NothingLeadsBackToPending | src/domain/delivery/enterprise/entities/value-object/package-status.ts:35-47 | no sequence of legal moves ever returns to pending |
| PackageStatus.FinalStatesAbsorb | src/domain/delivery/enterprise/entities/value-object/package-status.ts:44-46 | from a final status every non-empty sequence of moves fails |
| PackageStatus.EveryStatusCanFinish | src/domain/delivery/enterprise/entities/value-object/package-status.ts:35-47 | every status reaches a final status in at most one legal move |
| PackageStatus.DeliveryRoute | src/domain/delivery/enterprise/entities/value-object/package-status.ts:37-42 | the full route pending → … → out_for_delivery → delivered is legal |
| PackageCode.EncodingIsDigitChars | src/domain/delivery/enterprise/entities/value-object/package-code.ts:32 | the 32-character alphabet is the digits followed by the letters without I, L, O and U |
| PackageCode.DigitCharIncreasing | src/domain/delivery/enterprise/entities/value-object/package-code.ts:32 | the alphabet is strictly increasing, so each character has one digit value |
| PackageCode.IndexFrom | src/domain/delivery/enterprise/entities/value-object/package-code.ts:37 | `indexOf`: the first position holding the character, or -1 exactly when it is absent |
| PackageCode.IndexOfDigitChar | src/domain/delivery/enterprise/entities/value-object/package-code.ts:37 | `indexOf` inverts the alphabet: the character of digit d is found at d |
| PackageCode.ClassDigit | src/domain/delivery/enterprise/entities/value-object/package-code.ts:15 | every character of the class `[0-9A-HJKMNP-TV-Z]` is the alphabet character of some digit |
| PackageCode.ClassIsAlphabet | src/domain/delivery/enterprise/entities/value-object/package-code.ts:15 | the regex character class is exactly the alphabet |
| PackageCode.Upper | src/domain/delivery/enterprise/entities/value-object/package-code.ts:21 | `toUpperCase` keeps the length |
| PackageCode.DecodeTimeSnoc | src/domain/delivery/enterprise/entities/value-object/package-code.ts:31-42 | `decodeTime` is big-endian base 32: each further character multiplies the value by 32 and adds its index |
| PackageCode.EncodeDigits | src/domain/delivery/enterprise/entities/value-object/package-code.ts:50-54 | the timestamp loop builds exactly n characters |
| PackageCode.GenerateULID | src/domain/delivery/enterprise/entities/value-object/package-code.ts:44-62 | 26 characters: the 10-digit timestamp, then one alphabet character per random digit |
| PackageCode.DecodeEncode | src/domain/delivery/enterprise/entities/value-object/package-code.ts:44-54 | decoding n encoded digits of t gives t mod 32^n |
| PackageCode.TimestampRoundTrip | src/domain/delivery/enterprise/entities/value-object/package-code.ts:44-54 | round trip: for t < 32^10, decoding the generated timestamp prefix gives t |
| PackageCode.DecodeBound | src/domain/delivery/enterprise/entities/value-object/package-code.ts:31-42 | a decoded value lies between lead·32^(n-1) and (lead+1)·32^(n-1), where lead is its first digit |
| PackageCode.DecodeBoundAt | src/domain/delivery/enterprise/entities/value-object/package-code.ts:31-42 | the same bound with the leading digit and the power of 32 named, proved by induction on the length |
| PackageCode.PatternPrefix | src/domain/delivery/enterprise/entities/value-object/package-code.ts:15-21 | the upper-cased 10-character prefix of a matching code consists of alphabet characters and starts with 0–7 |
| PackageCode.ValidateSpec | src/domain/delivery/enterprise/entities/value-object/package-code.ts:14-29 | a code is accepted iff it has 26 characters, starts with 0–7, every other character is an alphabet character in either case, and its decoded time is not after now |
| PackageCode.AcceptedTimestampBound | src/domain/delivery/enterprise/entities/value-object/package-code.ts:15-22 | every accepted code decodes to less than 8·32^9 = 2^48 |
| PackageCode.FutureCodeRejected | src/domain/delivery/enterprise/entities/value-object/package-code.ts:21-26 | a code whose timestamp is after now is rejected, by `validate` and by `create` with `InvalidatePackageCodeError` |
| PackageCode.LeadingDigit | src/domain/delivery/enterprise/entities/value-object/package-code.ts:15 | a first character in 0–7 is exactly a leading digit below 8 |
| PackageCode.AlphabetChar | src/domain/delivery/enterprise/entities/value-object/package-code.ts:15-21 | an alphabet character is upper case and in the regex class |
| PackageCode.UpperOfAlphabet | src/domain/delivery/enterprise/entities/value-object/package-code.ts:21 | upper-casing a string of alphabet characters leaves it unchanged |
| PackageCode.GeneratedInAlphabet | src/domain/delivery/enterprise/entities/value-object/package-code.ts:44-62 | every generated character is an alphabet character |
| PackageCode.EncodedInAlphabet | src/domain/delivery/enterprise/entities/value-object/package-code.ts:50-54 | every character of the timestamp encoding is an alphabet character |
| PackageCode.Create | src/domain/delivery/enterprise/entities/value-object/package-code.ts:64-74 | succeeds iff the given (or generated) code validates, and stores it upper-cased; otherwise `InvalidatePackageCodeError` |
| PackageCode.Generate | src/domain/delivery/enterprise/entities/value-object/package-code.ts:76-78 | succeeds iff the freshly generated code validates, and then returns that code upper-cased; otherwise `InvalidatePackageCodeError` |
| PackageCode.GenerateSucceeds | src/domain/delivery/enterprise/entities/value-object/package-code.ts:44-78 | generation succeeds iff clock mod 32^10 is below 2^48 and not after now; the stored code then decodes to that value; so it succeeds whenever clock < 2^48 and clock ≤ now |
| PackageCode.RecreateStored | src/domain/delivery/enterprise/entities/value-object/package-code.ts:73 | re-creating a code from its stored value at the same now succeeds and gives the same value |
| PackageCode.WrongLengthRejected | src/domain/delivery/enterprise/entities/value-object/package-code.ts:15-19 | a code that is not 26 characters long is rejected |
| PackageCode.ForeignCharacterRejected | src/domain/delivery/enterprise/entities/value-object/package-code.ts:15-19 | a character outside the alphabet in either case (I, L, O, U, @, …) is rejected |
| PackageCode.TestedRejections | src/domain/delivery/enterprise/entities/value-object/package-code.spec.ts:45-70 | the short, the garbled and the symbol-laden codes of the tests are rejected |
| Cpf.Clean | src/domain/delivery/enterprise/value-object/cpf.ts:15 | removing non-digits keeps exactly the input's digits: a character occurs in the result iff it is a digit of the input; the result is never longer, and is empty when the input has no digit |
| Cpf.CleanAppend | src/domain/delivery/enterprise/value-object/cpf.ts:15 | cleaning distributes over concatenation |
| Cpf.CleanDigits | src/domain/delivery/enterprise/value-object/cpf.ts:15 | cleaning is the identity on digit strings, so it is idempotent |
| Cpf.CheckDigit | src/domain/delivery/enterprise/value-object/cpf.ts:29-30 | a check digit is 0–9; unless sum mod 11 is 1 it is the digit that makes sum + digit divisible by 11; when sum mod 11 is 1 (11 − 1 = 10) it is 0 |
| Cpf.CheckDigitUnique | src/domain/delivery/enterprise/value-object/cpf.ts:29-30 | digit v is the check digit of a sum iff sum + v is divisible by 11, or sum mod 11 is 1 and v is 0 |
| Cpf.Create | src/domain/delivery/enterprise/value-object/cpf.ts:50-57 | fails with `InvalidateCpfError` exactly when `validate` is false; on success stores only the cleaned digits |
| Cpf.ValidateSeesOnlyDigits | src/domain/delivery/enterprise/value-object/cpf.ts:14-15 | validation depends only on the digits of the input |
| Cpf.CreateStored | src/domain/delivery/enterprise/value-object/cpf.ts:55-56 | the stored value is 11 digits and is itself a valid CPF |
| Cpf.ValidateSpec | src/domain/delivery/enterprise/value-object/cpf.ts:14-48 | valid iff the cleaned string has 11 digits, is not one digit repeated, and equals its first nine digits completed by the two computed check digits |
| Cpf.DigitChar | src/domain/delivery/enterprise/value-object/cpf.ts:27 | the digit character of a value 0–9 is parsed back to that value |
| Cpf.WeightedSumPrefix | src/domain/delivery/enterprise/value-object/cpf.ts:25-28 | a weighted sum depends only on the digits it covers |
| Cpf.Complete | src/domain/delivery/enterprise/value-object/cpf.ts:25-45 | appending the two computed check digits to nine digits gives eleven digits with that prefix |
| Cpf.ChecksumsIffCompletion | src/domain/delivery/enterprise/value-object/cpf.ts:25-45 | both check-digit equations hold iff the last two digits are the ones computed from the first nine |
| Cpf.RepeatedSum | src/domain/delivery/enterprise/value-object/cpf.ts:25-39 | closed form of the weighted sum of a repeated digit |
| Cpf.RepeatedCheckDigit | src/domain/delivery/enterprise/value-object/cpf.ts:29-41 | for a repeated digit v the check digit is v again |
| Cpf.RepeatedDigitRejected | src/domain/delivery/enterprise/value-object/cpf.ts:21-23 | eleven copies of one digit satisfy both check-digit equations, yet are rejected |
| CepPattern.ConsumeDigits | src/domain/delivery/enterprise/entities/value-object/postal-code.ts:15 | consuming n digits leaves the rest of the input |
| CepPattern.ConsumeDigitsSpec | src/domain/delivery/enterprise/entities/value-object/postal-code.ts:15 | `\d{n}` matches iff the first n characters are ASCII digits, leaving the rest |
| CepPattern.MatchesIffShape | src/domain/delivery/enterprise/entities/value-object/postal-code.ts:15 | the regex holds iff the string is 5 digits, an optional '-', then 3 digits; an accepted value has length 8 or 9, and contains '-' (at index 5) exactly when its length is 9 |
| CepPattern.Rejections | src/domain/delivery/enterprise/entities/value-object/postal-code.ts:15 | a wrong length, a non-digit outside index 5, or a 9-character value without '-' at index 5 is rejected |
| CepPattern.TestedRejections | src/domain/delivery/enterprise/entities/value-object/postal-code.spec.ts:47-117 | letters, a space, '@', a lone '-', "" and 3+3, 4+3 and 6+3 groupings are rejected |
| CepPattern.TestedAcceptances | src/domain/delivery/enterprise/entities/value-object/postal-code.spec.ts:6-24 | "12345-678" and "12345678" are accepted |
| PostalCode.Create | src/domain/delivery/enterprise/entities/value-object/postal-code.ts:18-34 | fails with `InvalidPostalCode` exactly when the CEP pattern fails; stores the input unchanged |
| PostCode.Create | src/domain/delivery/enterprise/entities/value-object/post-code.ts:18-34 | fails with `InvalidaPostCode` exactly when the CEP pattern fails; stores the input unchanged |
| PackageHistory.Create | src/domain/delivery/enterprise/entities/package-history.ts:45-58 | keeps every supplied field; `createdAt` defaults to now only when absent; the id is the given one or a fresh one |
| PackageHistory.CreateKeepsProps | src/domain/delivery/enterprise/entities/package-history.ts:45-58 | round trip: a history built from fully supplied properties hands the same properties back |
| PackageHistory.IdenticalFieldsNotEqual | src/domain/delivery/enterprise/entities/package-history.spec.ts:125-156 | two histories built from identical fields but with different fresh ids hand back the same fields yet are not equal, because equality is by id |
| Package.Create | src/domain/delivery/enterprise/entities/package.ts:76-93 | defaults: the code `PackageCode.Generate` returns for this clock and randomness, status pending, no delivery person, `createdAt` now; `updatedAt` and `deliveredAt` always null; a failed code generation fails |
| Package.UpdateStatus | src/domain/delivery/enterprise/entities/package.ts:62-69 | succeeds iff the move is in the table; it sets the status and `updatedAt`, and `deliveredAt` only when moving to delivered; nothing else changes; an illegal move fails before any write |
| Package.AssignDeliveryPerson | src/domain/delivery/enterprise/entities/package.ts:71-74 | sets the delivery person and `updatedAt`; nothing else changes |
| Package.CreateEstablishesConsistency | src/domain/delivery/enterprise/entities/package.ts:87-88 | a package created in any status other than delivered has `deliveredAt` set exactly when delivered |
| Package.CreateDeliveredLosesDeliveredAt | src/domain/delivery/enterprise/entities/package.ts:87-88 | a package created as delivered with a `deliveredAt` loses it |
| Package.MutationsPreserveConsistency | src/domain/delivery/enterprise/entities/package.ts:62-74 | each method keeps `deliveredAt` set exactly when delivered |
| Package.RunPreservesConsistency | src/domain/delivery/enterprise/entities/package.ts:62-74 | every sequence of method calls keeps `deliveredAt` set exactly when delivered |
| Package.DeliveredIsFinal | src/domain/delivery/enterprise/entities/package.ts:62-64 | once delivered, every status update fails and the package stays delivered |
| DomainEvents.Initial | src/core/events/domain-events.ts:8-11 | the dispatcher starts with no handlers, nothing marked, and the switch on |
| DomainEvents.MarkEntityForDispatch | src/core/events/domain-events.ts:13-19 | the id is marked afterwards; marking an already-marked id changes nothing, and any other id is appended; marked ids stay pairwise distinct |
| DomainEvents.Register | src/core/events/domain-events.ts:51-62 | the handler is appended to its event name's list, created on first use; every other list and the marked entities are untouched |
| DomainEvents.ClearHandlers | src/core/events/domain-events.ts:64-66 | empties the handler table only |
| DomainEvents.ClearMarkedEntities | src/core/events/domain-events.ts:68-70 | empties the marked list only |
| DomainEvents.HandlerCalls | src/core/events/domain-events.ts:82-84 | one call per handler, in registration order |
| DomainEvents.Dispatch | src/core/events/domain-events.ts:72-86 | with the switch off, or for an event class with no handlers, nothing is called; otherwise each handler of the class is called once, in order |
| DomainEvents.FirstIndex | src/core/events/domain-events.ts:28-30 | `findIndex`: the first position holding the id, or the length exactly when it is absent |
| DomainEvents.Unmark | src/core/events/domain-events.ts:27-33 | removes one copy of the id and nothing else (multiset difference), so the list shrinks by one; from distinct marks it removes exactly that id and the rest stay distinct |
| DomainEvents.DispatchEventsForEntity | src/core/events/domain-events.ts:41-49 | an unmarked id changes nothing and calls nothing; a marked one has its events cleared and its mark removed, other marks and the handlers untouched, and makes exactly the calls of its events' trace through the handler table; with the switch off no handler runs |
| DomainEvents.CallHandlers | src/core/events/domain-events.ts:82-84 | the inner loop of `dispatch` calls every handler of the list once, in registration order |
| DomainEvents.DeliverAll | src/core/events/domain-events.ts:21-25 | the nested loops over events and their handlers make exactly the calls of `Trace` |
| DomainEvents.TraceWhenOff | src/core/events/domain-events.ts:77 | with the switch off the trace is empty |
| DomainEvents.TraceAppend | src/core/events/domain-events.ts:21-25 | dispatching two batches gives the calls of the first, then those of the second |
| DomainEvents.TraceInOrder | src/core/events/domain-events.ts:21-25 | pending events are delivered in order: all calls for event i come after those for earlier events and before those for later ones |
| DomainEvents.OnlyMatchingHandlersRun | src/core/events/domain-events.ts:72-86 | every call in a trace pairs a pending event with a handler registered under that event's class name |
| PackageAggregate.AsEvent | src/domain/notification/subscribers/on-package-registered-send-notification.ts:15-19 | a package event is keyed by its class name, `PackageRegisteredEvent` or `PackageAssignedToADeliveryPersonEvent` |
| PackageAggregate.Create | src/domain/delivery/application/use-cases/register-package.ts:79-89 | the new package has exactly the given fields, no histories, no pending events, and null `updatedAt`/`deliveredAt` |
| PackageAggregate.UpdateStatus | src/domain/delivery/application/use-cases/assign-package-to-a-delivery-person.ts:69-76 | succeeds iff the move is legal; on success sets the status, stamps as `package.ts` does, appends one history from the old to the new status, and changes no other field; an illegal move returns the status error |
| PackageAggregate.AssignDeliveryPerson | src/domain/delivery/application/use-cases/assign-package-to-a-delivery-person.ts:78-83 | sets the delivery person and `updatedAt`, appends one history from the given previous status to the current one, raises the assignment event carrying it, and changes no other field |
| PackageAggregate.MarkAsRegistered | src/domain/notification/subscribers/on-package-registered-send-notification.spec.ts:56-58 | appends a registration history with no previous status and raises the registration event carrying it; nothing else changes |
| PackageAggregate.UpdateStatusAgreesWithDraft | src/domain/delivery/enterprise/entities/package.ts:62-69 | the result-returning `updateStatus` succeeds on the same moves and changes the shared fields exactly as `package.ts` does |
| PackageAggregate.AssignAgreesWithDraft | src/domain/delivery/enterprise/entities/package.ts:71-74 | the four-argument assignment changes the shared fields exactly as the one-argument one of `package.ts` |
| UseCases.RegisterPackage | src/domain/delivery/application/use-cases/register-package.ts:40-94 | errors in order admin, delivery (only for a truthy id), recipient, then a failed code generation as `InvalidatePackageCodeError`; success iff all lookups hold and the code generates; the package is pending with the generated code, the recipient, the admin as author, and the found delivery person or null; it is registered in the repository |
| UseCases.NoDeliveryPersonNeverFails | src/domain/delivery/application/use-cases/register-package.ts:47-89 | a null or empty delivery-person id can never cause the 'delivery' error and is stored as null |
| UseCases.RegisterWritesOnce | src/domain/delivery/application/use-cases/register-package.ts:91-93 | on success the package repository is written exactly once, with the returned package |
| UseCases.AssignPackage | src/domain/delivery/application/use-cases/assign-package-to-a-delivery-person.ts:31-89 | errors in order admin, delivery, package; then any status other than pending gives the status error; success iff all found and pending; the package becomes awaiting_pickup with the requested delivery person and `updatedAt` now, keeps every field other than status, delivery person, `updatedAt`, histories and events, and is updated once |
| UseCases.OnlyPendingAwaitsPickup | src/domain/delivery/application/use-cases/assign-package-to-a-delivery-person.ts:63-76 | the move to awaiting_pickup is legal from pending and from nothing else |
| UseCases.AssignRecordsTwoHistories | src/domain/delivery/application/use-cases/assign-package-to-a-delivery-person.spec.ts:81-104 | a successful assignment adds exactly two histories, pending→awaiting_pickup then the assignment (whose previous status is the pre-move snapshot), and raises one assignment event |
| UseCases.ReassignReplacesDeliveryPerson | src/domain/delivery/application/use-cases/assign-package-to-a-delivery-person.spec.ts:215-240 | assigning a pending package that already has a delivery person replaces it |
| UseCases.RecordHistory | src/domain/delivery/application/use-cases/register-package-history.ts:56-66 | the history carries the supplied fields and `createdAt`, and is registered once |
| UseCases.RegisterPackageHistoryAsWritten | src/domain/delivery/application/use-cases/register-package-history.ts:29-69 | as written: errors admin, delivery, package; a null delivery person always gives the 'delivery' error; success iff admin, a known delivery person and the package all exist |
| UseCases.RegisterPackageHistory | src/domain/delivery/application/use-cases/register-package-history.spec.ts:72-103 | as the tests expect: a null delivery person is allowed; success iff admin and package exist and any given delivery person is known; the history carries exactly the supplied ids, statuses, description and `createdAt` and is registered once |
| UseCases.HistoryVersionsAgree | src/domain/delivery/application/use-cases/register-package-history.ts:36-50 | the two versions agree whenever a delivery-person id is given; with a null one the written version always fails with 'delivery' |
| UseCases.AnyPairRecorded | src/domain/delivery/application/use-cases/register-package-history.ts:56-64 | no transition check: even a forbidden pair such as delivered→pending is recorded |
| UseCases.NullDeliveryPersonScenario | src/domain/delivery/application/use-cases/register-package-history.spec.ts:72-103 | the test's input (existing admin and package, null delivery person) is rejected as written and accepted by the corrected version |
| Notifications.Truncate | src/domain/notification/subscribers/on-package-registered-send-notification.ts:35-38 | a name longer than the limit becomes its first limit characters plus '...'; other names are kept verbatim |
| Notifications.RegisteredContent | src/domain/notification/subscribers/on-package-registered-send-notification.ts:34-40 | the registration text starts with its fixed prefix, continues with the name truncated to 20 characters, and ends with the package code |
| Notifications.AssignedContent | src/domain/notification/subscribers/on-package-assigned-send-notification.ts:35-39 | the assignment text starts with its fixed prefix, continues with the name truncated to 10 characters, and ends with the package code |
| Notifications.SetupRegistered | src/domain/notification/subscribers/on-package-registered-send-notification.ts:15-20 | constructing the subscriber registers its handler under `PackageRegisteredEvent` |
| Notifications.SetupAssigned | src/domain/notification/subscribers/on-package-assigned-send-notification.ts:15-20 | constructing the subscriber registers its handler under `PackageAssignedToADeliveryPersonEvent` |
| Notifications.Handle | src/domain/notification/subscribers/on-package-registered-send-notification.ts:22-43 | a missing package sends nothing; otherwise one notification to the package's recipient, titled with the history's description or the subscriber's default, whose content is that subscriber's template for the package's name and code |
| Notifications.Deliver | src/core/events/domain-events.ts:82-84 | never more notifications than calls; when every call's package is stored, one notification per call, in call order, each the one its handler sends for that call; when none is stored, nothing is sent |
| Notifications.MarkRaised | src/core/events/domain-events.ts:13-19 | raising an event marks the package for dispatch |
| Notifications.Persist | src/domain/notification/subscribers/on-package-registered-send-notification.spec.ts:56-73 | a save stores the package and leaves every other stored package as it was; if it was marked, its events are cleared, one copy of its mark is removed while the other marks, the handler table and the switch are kept, and the notifications are those its pending events' trace delivers against the stored packages; if not, nothing is dispatched; with the switch off nothing is sent |
| Notifications.Subscribed | src/domain/notification/subscribers/on-package-assigned-send-notification.ts:8-20 | after both subscribers are constructed, each event name has exactly its subscriber's handler |
| Notifications.DispatchCallsItsSubscriber | src/core/events/domain-events.ts:72-86 | with the two subscribers registered, dispatching a package event calls exactly the subscriber for its class |
| Notifications.EachEventCallsItsSubscriber | src/core/events/domain-events.ts:21-25 | dispatching a run of package events calls, per event and in order, exactly the subscriber for its class, and nothing else |
| Notifications.SingleEventCallsItsSubscriber | src/core/events/domain-events.ts:72-86 | one package event calls exactly the subscriber registered for its class |
| Notifications.OneEventOneNotification | src/domain/notification/subscribers/on-package-registered-send-notification.spec.ts:60-73 | saving a package with one pending event sends exactly one notification, from the matching subscriber |
| Notifications.EveryEventOneNotification | src/domain/notification/subscribers/on-package-registered-send-notification.ts:15-38 | saving a marked package whose events are about itself sends one notification per pending event, in event order, each the matching subscriber's for that event |
| Notifications.SwitchedOffSendsNothing | src/core/events/domain-events.ts:41-49 | with the switch off nothing is sent, yet the package's events are cleared and its mark removed |
| Flows.AssignSendsOneNotification | src/domain/notification/subscribers/on-package-assigned-send-notification.spec.ts:69-80 | assigning then saving sends exactly one notification: to the recipient, titled with the description or the default, naming the truncated package name and ending with its code |
| Flows.RegisterPackageSendsNothing | src/domain/delivery/application/use-cases/register-package.ts:79-93 | a package registered through the use case raises no event, so saving it sends nothing |
| Flows.MarkAsRegisteredSendsOneNotification | src/domain/notification/subscribers/on-package-registered-send-notification.spec.ts:49-73 | marking as registered then saving sends exactly one registration notification with the default title |

## Left out

- The clock, `Math.random` and id generation: they are parameters, as described above. Real time, and floating-point randomness scaled to a digit, are not modelled.
- JavaScript number precision: timestamps are unbounded naturals. Every value the code handles is below 32^10 = 2^50, which a double holds exactly, so nothing is lost.
- Async behaviour: lookups are sequential reads of sets and maps. Handlers are not awaited in the source. The model records their calls in order and does not model interleaving.
- Handler re-entrancy and handler exceptions: a handler that saves another aggregate, and so dispatches again, is not modelled. The same goes for a handler whose throw aborts the save.
- Entity objects in the dispatcher: marked entities are identified by id. `DomainEvents.DispatchEventsForEntity` takes the marked entity's current pending events as an argument.
- The source of the newer `Package` draft is not part of this model. The `PackageAggregate` members are inferred from call sites and tests:
  - `PackageAggregate.UpdateStatus`: the history it records carries the package's current delivery person and no description.
  - `PackageAggregate.MarkAsRegistered`: its history has no description.
  - `PackageAggregate.Create`: it returns the package directly, as `register-package.ts` uses it. The test factory instead unwraps an `Either`.
- The attachment guard (`MissingAttachmentError`, expected by package.spec.ts) and `addAttachment`. They exist only in the unshown newer draft, and the order of the guard relative to the transition check is not known.
- Package.Create: `package.ts` imports the throwing `PackageCode` of `../value-object/package-code`, whose `generate` returns a code or throws. That variant is not part of this model. The model assumes it generates and validates like `entities/value-object/package-code.ts`, and a `Left` stands for its throw.
- Package.UpdateStatus: the two `new Date()` reads at package.ts:64 and :67 are one `now`, so a move to delivered sets `updatedAt` and `deliveredAt` to the same instant. In the source they can differ by the time between the two reads.
- PackageHistory.Equals: compares id values. `Entity.equals` compares the two `UniqueEntityId` objects with `===`, so two entities holding separate id objects with the same string are equal here but not in the source. They agree whenever the id object is shared, as in the dispatcher's removal, which compares a marked entity with itself.
- DomainEvents.Register: the handler table is a map, so a name such as `constructor` or `toString` is a fresh key. In the source the table is a plain object, `in` also sees `Object.prototype` properties, and registering under such a name throws a TypeError at domain-events.ts:61. Event names are the package events' class names, so this does not arise here.
- DomainEvents.Dispatch: for the same names the source finds an inherited function instead of a handler list, and with the switch on iterating it throws a TypeError at domain-events.ts:82. The model dispatches nothing for such a name.
- Repository dispatch on save: the shown in-memory packages repository only appends. `Notifications.Persist` models the dispatch that the subscriber tests rely on.
- Person entities, their registration and authentication use cases, the hasher, the encrypter, and the external CPF/CEP validators. CPF validity is modelled in `Cpf`.
- `package-history-list.ts`/`WatchedList`: histories are a plain sequence.
- The `Notification` entity and `send-notification.ts`: a notification is a plain record of title, content and recipient.
- `src/domain/delivery/enterprise/entities/value-object/package-history.ts`: it is an older draft whose equality lives in an unseen base class.
- The `src/domain/delivery/enterprise/value-object/*.spec.ts` files: they test throwing variants that are not shown.
- `test/utils/generate-future-ulid.ts`: calendar arithmetic and randomness around the same encoder.
- Error messages: errors are tags. `ResourceNotFoundError` keeps its resource name.
- Notifications.Truncate: lengths count Dafny characters (Unicode scalar values). JavaScript counts UTF-16 code units, so the two differ only for names containing characters outside the Basic Multilingual Plane.
- PackageCode.Upper: upper-cases ASCII letters only. JavaScript's `toUpperCase` also maps other letters. The result matters only for codes that pass the ASCII-only pattern, so the two agree wherever it is used.

## Findings

| source | as written | input that shows it | evidently intended | confidence | as-written member | corrected member |
|---|---|---|---|---|---|---|
| src/domain/delivery/application/use-cases/register-package-history.ts:48-50 | `if (!deliveryPerson)` rejects a request whose `deliveryPersonId` is null, because the lookup is skipped and `deliveryPerson` stays null | an existing admin and package with `deliveryPersonId: null`: the result is `ResourceNotFoundError('delivery')` | a null delivery person is allowed and only a given but unknown one is an error. The tests at register-package-history.spec.ts:72-132 expect this, and register-package.ts:59 uses the same rule | high that code and tests disagree; medium that the code is the side in error; not executed | UseCases.RegisterPackageHistoryAsWritten | UseCases.RegisterPackageHistory |

=== FILE: arithmetic.dfy ===
/** Facts about integer multiplication and Euclidean division that the proofs share. */
module Arithmetic {

  lemma MulAtLeast(m: int, k: int)
    ensures m >= 0 && k >= 1 ==> m * k >= m
  {
    if m >= 0 && k >= 1 {
      assert m * k == m * (k - 1) + m;
    }
  }

  /** Euclidean division is unique: a decomposition with remainder in [0, m) is the one `/` and
      `%` compute. */
  lemma ModUnique(x: int, m: int, q: int, rem: int)
    requires m > 0 && x == m * q + rem && 0 <= rem < m
    ensures x % m == rem && x / m == q
  {
    var k := x / m - q;
    assert m * k == rem - x % m;
    MulAtLeast(m, k);
    MulAtLeast(m, -k);
    assert m * (-k) == -(m * k);
  }

  lemma MulLe(a: int, b: int, p: nat)
    ensures a <= b ==> a * p <= b * p
  {
    if a <= b {
      assert b * p - a * p == (b - a) * p;
    }
  }
}

=== FILE: cep_pattern.dfy ===
/** The Brazilian postal-code (CEP) pattern `/^\d{5}-?\d{3}$/` shared by PostalCode and PostCode:
    five ASCII digits, an optional hyphen, three ASCII digits. */
module CepPattern {
  import opened Core

  predicate IsDigit(c: char) {
    '0' <= c <= '9'
  }

  /** `\d{n}` at the front of `s`: the rest of `s` after exactly `n` digits, if there are. */
  function ConsumeDigits(s: string, n: nat): (r: Option<string>)
    ensures r.Some? ==> |r.value| + n == |s|
  {
    if n == 0 then Some(s)
    else if |s| > 0 && IsDigit(s[0]) then ConsumeDigits(s[1..], n - 1)
    else None
  }

  /** `-?`: drops one leading hyphen when there is one. */
  function OptionalHyphen(s: string): string {
    if |s| > 0 && s[0] == '-' then s[1..] else s
  }

  /** The anchored pattern, matched left to right. */
  predicate Matches(s: string) {
    match ConsumeDigits(s, 5)
    case None => false
    case Some(rest) =>
      match ConsumeDigits(OptionalHyphen(rest), 3)
      case None => false
      case Some(tail) => tail == []
  }

  /** `\d{n}` succeeds exactly on `n` leading digits and leaves the rest. */
  lemma {:induction false} ConsumeDigitsSpec(s: string, n: nat)
    ensures ConsumeDigits(s, n).Some? <==> n <= |s| && forall i :: 0 <= i < n ==> IsDigit(s[i])
    ensures ConsumeDigits(s, n).Some? ==> ConsumeDigits(s, n).value == s[n..]
  {
    if n > 0 && |s| > 0 {
      ConsumeDigitsSpec(s[1..], n - 1);
      if IsDigit(s[0]) {
        assert forall i :: 1 <= i < n && i < |s| ==> s[1..][i - 1] == s[i];
      }
    }
  }

  /** The shape the pattern accepts: eight digits, or five digits, '-' and three digits. */
  predicate Shape(s: string) {
    || (|s| == 8 && forall i :: 0 <= i < 8 ==> IsDigit(s[i]))
    || (|s| == 9 && s[5] == '-' && forall i :: 0 <= i < 9 && i != 5 ==> IsDigit(s[i]))
  }

  /** The matcher accepts exactly the two shapes; accepted values have length 8 or 9 and carry a
      hyphen, at index 5, exactly when their length is 9. */
  lemma MatchesIffShape(s: string)
    ensures Matches(s) <==> Shape(s)
    ensures Matches(s) ==> (|s| == 8 || |s| == 9) && ('-' in s <==> |s| == 9)
    ensures Matches(s) && |s| == 9 ==> s[5] == '-'
  {
    ConsumeDigitsSpec(s, 5);
    if ConsumeDigits(s, 5).Some? {
      var rest := s[5..];
      var h := OptionalHyphen(rest);
      ConsumeDigitsSpec(h, 3);
      if |rest| > 0 && rest[0] == '-' {
        assert forall i :: 0 <= i < |h| ==> h[i] == s[i + 6];
      } else {
        assert forall i :: 0 <= i < |h| ==> h[i] == s[i + 5];
      }
    }
  }

  /** A value is rejected when its length is neither 8 nor 9, when any position other than 5
      holds a non-digit, or when a nine-character value has anything but '-' at position 5. */
  lemma Rejections(s: string, i: nat)
    ensures |s| != 8 && |s| != 9 ==> !Matches(s)
    ensures i < |s| && i != 5 && !IsDigit(s[i]) ==> !Matches(s)
    ensures |s| == 9 && s[5] != '-' ==> !Matches(s)
  {
    MatchesIffShape(s);
  }

  /** The values the postal-code tests reject: letters, a 3+3, 4+3 and 6+3 grouping, the empty
      string, '@', a space, a lone hyphen. */
  lemma TestedRejections()
    ensures !Matches("12345-abc") && !Matches("123-456") && !Matches("1234-567")
    ensures !Matches("123456-789") && !Matches("") && !Matches("12345@678")
    ensures !Matches("12345 678") && !Matches("-")
  {
    Rejections("12345-abc", 6);
    Rejections("123-456", 0);
    Rejections("1234-567", 4);
    Rejections("123456-789", 0);
    Rejections("", 0);
    Rejections("12345@678", 0);
    Rejections("12345 678", 0);
    Rejections("-", 0);
  }

  /** The two shapes the tests accept. */
  lemma TestedAcceptances()
    ensures Matches("12345-678") && Matches("12345678")
  {
    var dashed, plain := "12345-678", "12345678";
    assert Shape(dashed) by {
      assert forall i :: 0 <= i < 9 && i != 5 ==> IsDigit(dashed[i]);
    }
    assert Shape(plain) by {
      assert forall i :: 0 <= i < 8 ==> IsDigit(plain[i]);
    }
    MatchesIffShape(dashed);
    MatchesIffShape(plain);
  }
}

=== FILE: core.dfy ===
/** Shared vocabulary of the model: nullable values, entity ids and clock readings. */
module Core {

  /** A nullable value: `None` stands for the source's `null` (or an omitted optional field). */
  datatype Option<+T> = None | Some(value: T) {

    /** The value, or `default` when absent (the source's `??` operator). */
    function GetOr(default: T): (r: T)
      ensures Some? ==> r == value
      ensures None? ==> r == default
    {
      match this
      case Some(v) => v
      case None => default
    }
  }

  /** An entity id, compared by its string value (UniqueEntityId.toValue). */
  type Id = string

  /** A clock reading in milliseconds since the epoch (Date.now()). */
  type Timestamp = nat
}

=== FILE: cpf.dfy ===
/** The Brazilian CPF value object: eleven digits whose last two are mod-11 check digits. */
module Cpf {
  import opened Either
  import opened Arithmetic

  datatype Cpf = Cpf(value: string)

  datatype CpfError = InvalidateCpfError

  /** `\d`: an ASCII decimal digit. */
  predicate IsDigit(c: char) {
    '0' <= c <= '9'
  }

  predicate AllDigits(s: string) {
    forall i :: 0 <= i < |s| ==> IsDigit(s[i])
  }

  /** `parseInt(c, 10)` of one digit character. */
  function DigitVal(c: char): int
    requires IsDigit(c)
  {
    c as int - '0' as int
  }

  /** `cpf.replace(/[^\d]/g, '')`: keeps the digits, in order, and drops everything else. */
  function Clean(s: string): (r: string)
    ensures AllDigits(r)
    ensures |r| <= |s|
    ensures forall c :: c in r <==> c in s && IsDigit(c)
    ensures (forall i :: 0 <= i < |s| ==> !IsDigit(s[i])) ==> r == []
  {
    if s == [] then []
    else
      var r := (if IsDigit(s[0]) then [s[0]] else []) + Clean(s[1..]);
      assert forall c :: c in s <==> c == s[0] || c in s[1..];
      r
  }

  /** Cleaning distributes over concatenation, so it keeps the digits in their original order. */
  lemma {:induction false} CleanAppend(a: string, b: string)
    ensures Clean(a + b) == Clean(a) + Clean(b)
  {
    if a == [] {
      assert a + b == b;
    } else {
      var head := if IsDigit(a[0]) then [a[0]] else [];
      assert (a + b)[0] == a[0];
      assert (a + b)[1..] == a[1..] + b;
      calc {
        Clean(a + b);
        head + Clean(a[1..] + b);
        { CleanAppend(a[1..], b); }
        head + (Clean(a[1..]) + Clean(b));
        (head + Clean(a[1..])) + Clean(b);
        Clean(a) + Clean(b);
      }
    }
  }

  /** A string of digits is its own cleaning; in particular cleaning is idempotent. */
  lemma {:induction false} CleanDigits(s: string)
    requires AllDigits(s)
    ensures Clean(s) == s
  {
    if s != [] {
      CleanDigits(s[1..]);
    }
  }

  /** The loop `sum += digit(i) * (top - i)` over the first `n` digits. */
  function WeightedSum(d: string, n: nat, top: int): int
    requires n <= |d| && AllDigits(d)
  {
    if n == 0 then 0 else WeightedSum(d, n - 1, top) + DigitVal(d[n - 1]) * (top - (n - 1))
  }

  /** `11 - (sum % 11)`, replaced by 0 when it reaches 10 or 11: the digit that brings the sum to
      a multiple of 11, or 0 when no single digit does (a remainder of 1 would need 10). */
  function CheckDigit(sum: int): (r: int)
    ensures 0 <= r <= 9
    ensures sum % 11 != 1 ==> (sum + r) % 11 == 0
    ensures sum % 11 == 1 ==> r == 0
  {
    var r := 11 - (sum % 11);
    if r >= 10 then 0
    else
      ModUnique(sum + r, 11, sum / 11 + 1, 0);
      r
  }

  /** The check digit is the only digit that completes the sum to a multiple of 11, and 0 when
      none does. */
  lemma CheckDigitUnique(sum: int, v: int)
    requires 0 <= v <= 9
    ensures CheckDigit(sum) == v <==> (sum + v) % 11 == 0 || (sum % 11 == 1 && v == 0)
  {
    var q, m := sum / 11, sum % 11;
    assert sum == 11 * q + m;
    if m + v < 11 {
      ModUnique(sum + v, 11, q, m + v);
    } else {
      ModUnique(sum + v, 11, q + 1, m + v - 11);
    }
  }

  /** `/^(\d)\1{10}$/` on an eleven-digit string: every digit equals the first. */
  predicate AllSame(d: string)
    requires |d| == 11
  {
    forall i :: 0 <= i < 11 ==> d[i] == d[0]
  }

  /** Both check-digit equations of an eleven-digit string. */
  predicate ChecksumsHold(d: string)
    requires |d| == 11 && AllDigits(d)
  {
    && CheckDigit(WeightedSum(d, 9, 10)) == DigitVal(d[9])
    && CheckDigit(WeightedSum(d, 10, 11)) == DigitVal(d[10])
  }

  /** `Cpf.validate`, step by step: length, repeated digit, first check digit, second. */
  predicate Validate(cpf: string) {
    var d := Clean(cpf);
    if |d| != 11 then false
    else if AllSame(d) then false
    else if CheckDigit(WeightedSum(d, 9, 10)) != DigitVal(d[9]) then false
    else if CheckDigit(WeightedSum(d, 10, 11)) != DigitVal(d[10]) then false
    else true
  }

  /** `Cpf.create`: fails exactly when `validate` does, and stores only the cleaned digits. */
  function Create(value: string): (r: Either<CpfError, Cpf>)
    ensures r.IsRight() <==> Validate(value)
    ensures r.IsLeft() ==> r.left == InvalidateCpfError
    ensures r.IsRight() ==> r.right.value == Clean(value)
  {
    if !Validate(value) then Left(InvalidateCpfError)
    else Right(Cpf(Clean(value)))
  }

  /** Validation looks only at the digits: punctuation anywhere changes nothing. */
  lemma ValidateSeesOnlyDigits(cpf: string)
    ensures Validate(cpf) == Validate(Clean(cpf))
  {
    CleanDigits(Clean(cpf));
  }

  /** A stored CPF is eleven digits, valid, and re-creating it gives the same value. */
  lemma CreateStored(value: string)
    requires Create(value).IsRight()
    ensures var stored := Create(value).right.value;
      && |stored| == 11 && AllDigits(stored)
      && Create(stored) == Create(value)
  {
    CleanDigits(Clean(value));
  }

  /** The validation rule against the completion: eleven digits after cleaning, not all the same,
      and equal to the completion of their first nine digits. */
  lemma ValidateSpec(cpf: string)
    ensures Validate(cpf) <==>
      var d := Clean(cpf);
      |d| == 11 && !AllSame(d) && d == Complete(d[..9])
  {
    var d := Clean(cpf);
    if |d| == 11 {
      ChecksumsIffCompletion(d);
    }
  }

  /** The character of a digit value. */
  function DigitChar(v: int): (c: char)
    requires 0 <= v <= 9
    ensures IsDigit(c) && DigitVal(c) == v
  {
    ('0' as int + v) as char
  }

  /** The weighted sum over the first `n` digits depends on nothing else. */
  lemma {:induction false} WeightedSumPrefix(a: string, b: string, n: nat, top: int)
    requires n <= |a| && n <= |b| && AllDigits(a) && AllDigits(b)
    requires a[..n] == b[..n]
    ensures WeightedSum(a, n, top) == WeightedSum(b, n, top)
  {
    if n > 0 {
      assert a[n - 1] == a[..n][n - 1] == b[..n][n - 1] == b[n - 1];
      assert a[..n - 1] == a[..n][..n - 1];
      assert b[..n - 1] == b[..n][..n - 1];
      WeightedSumPrefix(a, b, n - 1, top);
    }
  }

  /** The CPF whose first nine digits are `base`, completed with the two check digits the
      rule computes. */
  function Complete(base: string): (d: string)
    requires |base| == 9 && AllDigits(base)
    ensures |d| == 11 && AllDigits(d) && d[..9] == base
  {
    var first := DigitChar(CheckDigit(WeightedSum(base, 9, 10)));
    var ten := base + [first];
    ten + [DigitChar(CheckDigit(WeightedSum(ten, 10, 11)))]
  }

  /** Check digits are determined by the base: an eleven-digit string satisfies both equations
      exactly when it is the completion of its first nine digits. */
  lemma ChecksumsIffCompletion(d: string)
    requires |d| == 11 && AllDigits(d)
    ensures ChecksumsHold(d) <==> d == Complete(d[..9])
  {
    var base := d[..9];
    var first := DigitChar(CheckDigit(WeightedSum(base, 9, 10)));
    var ten := base + [first];
    var c := Complete(base);
    assert c == ten + [DigitChar(CheckDigit(WeightedSum(ten, 10, 11)))];
    assert base[..9] == d[..9];
    WeightedSumPrefix(d, base, 9, 10);
    if CheckDigit(WeightedSum(d, 9, 10)) == DigitVal(d[9]) {
      assert d[..10] == ten;
      assert ten[..10] == ten;
      WeightedSumPrefix(d, ten, 10, 11);
      assert d == ten + [d[10]];
    } else {
      assert c[9] == first != d[9];
    }
  }

  /** Twice the weighted sum of `n` copies of digit `c`, in closed form. */
  lemma {:induction false} RepeatedSum(d: string, n: nat, top: int, c: char)
    requires n <= |d| && AllDigits(d) && IsDigit(c)
    requires forall i :: 0 <= i < n ==> d[i] == c
    ensures 2 * WeightedSum(d, n, top) == DigitVal(c) * (2 * n * top - n * (n - 1))
  {
    if n > 0 {
      RepeatedSum(d, n - 1, top, c);
      assert d[n - 1] == c;
      RepeatedSumStep(DigitVal(c), n, top, WeightedSum(d, n - 1, top));
    }
  }

  /** The arithmetic of one step of `RepeatedSum`. */
  lemma RepeatedSumStep(v: int, n: int, top: int, prev: int)
    requires 2 * prev == v * (2 * (n - 1) * top - (n - 1) * (n - 2))
    ensures 2 * (prev + v * (top - (n - 1))) == v * (2 * n * top - n * (n - 1))
  {
    var a := 2 * (n - 1) * top - (n - 1) * (n - 2);
    var b := 2 * (top - (n - 1));
    assert a + b == 2 * n * top - n * (n - 1);
    assert v * a + v * b == v * (a + b);
  }

  /** For a digit value v, both 54v and 65v leave the check digit v. */
  lemma RepeatedCheckDigit(v: int, k: int)
    requires 0 <= v <= 9 && k >= 1
    ensures CheckDigit((11 * k - 1) * v) == v
  {
    if v > 0 {
      assert (11 * k - 1) * v == 11 * (k * v - 1) + (11 - v);
      ModUnique((11 * k - 1) * v, 11, k * v - 1, 11 - v);
    }
  }

  /** Eleven copies of one digit satisfy both check-digit equations, yet are rejected. */
  lemma RepeatedDigitRejected(c: char)
    requires IsDigit(c)
    ensures var d := seq(11, _ => c); ChecksumsHold(d) && !Validate(d)
  {
    var d := seq(11, _ => c);
    var v := DigitVal(c);
    assert forall i :: 0 <= i < 11 ==> d[i] == c;
    assert WeightedSum(d, 9, 10) == 54 * v by {
      RepeatedSum(d, 9, 10, c);
    }
    assert WeightedSum(d, 10, 11) == 65 * v by {
      RepeatedSum(d, 10, 11, c);
    }
    RepeatedCheckDigit(v, 5);
    RepeatedCheckDigit(v, 6);
    assert AllSame(d);
    CleanDigits(d);
  }
}

=== FILE: domain_events.dfy ===
/** The process-wide domain-event dispatcher: a list of entities marked for dispatch and a table
    of handler lists keyed by event class name, with a global off switch. The two static tables
    become one immutable `Bus` value; invoking a handler is recorded as a `Call` in a trace. */
module DomainEvents {
  import opened Core

  /** An event as the dispatcher sees it: the name of its class and whatever it carries. */
  datatype Event<+P> = Event(className: string, payload: P)

  /** One handler invocation. */
  datatype Call<+H, +P> = Call(handler: H, event: Event<P>)

  /** The dispatcher's state. A marked entity is recorded by its id; the entity object itself,
      and hence its pending events, is supplied by the caller at dispatch time. */
  datatype Bus<H> = Bus(handlers: map<string, seq<H>>, marked: seq<Id>, shouldRun: bool)

  /** The state before anything is registered or marked. */
  function Initial<H>(): (b: Bus<H>)
    ensures b.handlers == map[] && b.marked == [] && b.shouldRun
  {
    Bus(map[], [], true)
  }

  predicate Distinct(ids: seq<Id>) {
    forall i, j :: 0 <= i < j < |ids| ==> ids[i] != ids[j]
  }

  /** `markEntityForDispatch`: appends the id unless an entity with an equal id is already
      marked. */
  function MarkEntityForDispatch<H>(bus: Bus<H>, id: Id): (r: Bus<H>)
    ensures id in r.marked
    ensures id in bus.marked ==> r == bus
    ensures id !in bus.marked ==> r == bus.(marked := bus.marked + [id])
    ensures Distinct(bus.marked) ==> Distinct(r.marked)
  {
    if id in bus.marked then bus else bus.(marked := bus.marked + [id])
  }

  /** `register`: appends the handler to its event name's list, creating the list on first use. */
  function Register<H>(bus: Bus<H>, handler: H, eventClassName: string): (r: Bus<H>)
    ensures eventClassName in r.handlers
    ensures eventClassName in bus.handlers ==>
      r.handlers[eventClassName] == bus.handlers[eventClassName] + [handler]
    ensures eventClassName !in bus.handlers ==> r.handlers[eventClassName] == [handler]
    ensures forall name :: name != eventClassName ==>
      (name in r.handlers <==> name in bus.handlers) &&
      (name in bus.handlers ==> r.handlers[name] == bus.handlers[name])
    ensures r.marked == bus.marked && r.shouldRun == bus.shouldRun
  {
    var existing := if eventClassName in bus.handlers then bus.handlers[eventClassName] else [];
    bus.(handlers := bus.handlers[eventClassName := existing + [handler]])
  }

  /** `clearHandlers`. */
  function ClearHandlers<H>(bus: Bus<H>): (r: Bus<H>)
    ensures r.handlers == map[]
    ensures r.marked == bus.marked && r.shouldRun == bus.shouldRun
  {
    bus.(handlers := map[])
  }

  /** `clearMarkedEntities`. */
  function ClearMarkedEntities<H>(bus: Bus<H>): (r: Bus<H>)
    ensures r.marked == []
    ensures r.handlers == bus.handlers && r.shouldRun == bus.shouldRun
  {
    bus.(marked := [])
  }

  /** The handler calls for one event, one per handler in registration order. */
  function HandlerCalls<H, P>(handlers: seq<H>, e: Event<P>): (r: seq<Call<H, P>>)
    ensures |r| == |handlers|
    ensures forall k :: 0 <= k < |r| ==> r[k] == Call(handlers[k], e)
    decreases |handlers|
  {
    if handlers == [] then []
    else HandlerCalls(handlers[..|handlers| - 1], e) + [Call(handlers[|handlers| - 1], e)]
  }

  /** `dispatch`: nothing runs while the switch is off, and an event whose class has no
      handlers is dropped. */
  function Dispatch<H, P>(handlers: map<string, seq<H>>, shouldRun: bool, e: Event<P>): (r: seq<Call<H, P>>)
    ensures !shouldRun || e.className !in handlers ==> r == []
    ensures shouldRun && e.className in handlers ==>
      |r| == |handlers[e.className]| &&
      forall k :: 0 <= k < |r| ==> r[k] == Call(handlers[e.className][k], e)
  {
    if !shouldRun then []
    else if e.className in handlers then HandlerCalls(handlers[e.className], e)
    else []
  }

  /** The calls made when an entity's pending events are dispatched one after another. */
  function Trace<H, P>(handlers: map<string, seq<H>>, shouldRun: bool, events: seq<Event<P>>)
    : seq<Call<H, P>>
    decreases |events|
  {
    if events == [] then []
    else Trace(handlers, shouldRun, events[..|events| - 1])
         + Dispatch(handlers, shouldRun, events[|events| - 1])
  }

  /** Index of the first marked entry equal to `id` (`findIndex`), or `|marked|` if there is none. */
  function FirstIndex(marked: seq<Id>, id: Id): (i: nat)
    ensures i <= |marked|
    ensures i < |marked| ==> marked[i] == id
    ensures forall k :: 0 <= k < i ==> marked[k] != id
    ensures i == |marked| <==> id !in marked
    decreases |marked|
  {
    if marked == [] then 0
    else if marked[0] == id then 0
    else 1 + FirstIndex(marked[1..], id)
  }

  /** `removeEntityFromMarkedDispatchList`, used only on an id that is marked: splices out the
      first equal entry. */
  function Unmark(marked: seq<Id>, id: Id): (r: seq<Id>)
    requires id in marked
    ensures |r| == |marked| - 1
    ensures multiset(r) == multiset(marked) - multiset{id}
    ensures Distinct(marked) ==> Distinct(r) && forall x :: x in r <==> x in marked && x != id
  {
    var i := FirstIndex(marked, id);
    SpliceFacts(marked, i);
    marked[..i] + marked[i + 1..]
  }

  /** The outcome of `dispatchEventsForEntity`: the new dispatcher state, the entity's pending
      events afterwards, and the handler calls made, in order. */
  datatype Outcome<H, P> = Outcome(bus: Bus<H>, pending: seq<Event<P>>, calls: seq<Call<H, P>>)

  /** `dispatchEventsForEntity(id)` for the entity with that id whose pending events are `events`.
      An unmarked id changes nothing; a marked one has its events dispatched (or not, when the
      switch is off), cleared, and its mark removed. */
  function DispatchEventsForEntity<H, P>(bus: Bus<H>, id: Id, events: seq<Event<P>>): (r: Outcome<H, P>)
    ensures id !in bus.marked ==> r == Outcome(bus, events, [])
    ensures id in bus.marked ==>
      && r.pending == []
      && r.bus.handlers == bus.handlers
      && r.bus.shouldRun == bus.shouldRun
      && multiset(r.bus.marked) == multiset(bus.marked) - multiset{id}
      && (Distinct(bus.marked) ==>
            Distinct(r.bus.marked) && forall x :: x in r.bus.marked <==> x in bus.marked && x != id)
      && r.calls == Trace(bus.handlers, bus.shouldRun, events)
    ensures !bus.shouldRun ==> r.calls == []
  {
    if id in bus.marked then
      TraceWhenOff(bus.handlers, bus.shouldRun, events);
      Outcome(bus.(marked := Unmark(bus.marked, id)), [], Trace(bus.handlers, bus.shouldRun, events))
    else
      Outcome(bus, events, [])
  }

  /** Appending a handler adds exactly its call at the end. */
  lemma HandlerCallsSnoc<H, P>(hs: seq<H>, h: H, e: Event<P>)
    ensures HandlerCalls(hs + [h], e) == HandlerCalls(hs, e) + [Call(h, e)]
  {
    assert (hs + [h])[..|hs|] == hs;
  }

  /** Appending an event adds exactly its dispatch at the end of the trace. */
  lemma TraceSnoc<H, P>(handlers: map<string, seq<H>>, shouldRun: bool, events: seq<Event<P>>, e: Event<P>)
    ensures Trace(handlers, shouldRun, events + [e]) == Trace(handlers, shouldRun, events) + Dispatch(handlers, shouldRun, e)
  {
    assert (events + [e])[..|events|] == events;
  }

  /** The loop of `dispatch`: every handler registered for the event, in order. */
  method CallHandlers<H, P>(hs: seq<H>, e: Event<P>) returns (calls: seq<Call<H, P>>)
    ensures calls == HandlerCalls(hs, e)
  {
    calls := [];
    var j := 0;
    while j < |hs|
      invariant 0 <= j <= |hs|
      invariant calls == HandlerCalls(hs[..j], e)
    {
      assert hs[..j + 1] == hs[..j] + [hs[j]];
      HandlerCallsSnoc(hs[..j], hs[j], e);
      calls := calls + [Call(hs[j], e)];
      j := j + 1;
    }
    assert hs[..|hs|] == hs;
  }

  /** The loop of `dispatchEntityEvents` around the loop of `dispatch`: every pending event in
      turn, and for each, every handler registered under its class name. */
  method DeliverAll<H, P>(handlers: map<string, seq<H>>, shouldRun: bool, events: seq<Event<P>>)
    returns (calls: seq<Call<H, P>>)
    ensures calls == Trace(handlers, shouldRun, events)
  {
    calls := [];
    var i := 0;
    while i < |events|
      invariant 0 <= i <= |events|
      invariant calls == Trace(handlers, shouldRun, events[..i])
    {
      var e := events[i];
      assert events[..i + 1] == events[..i] + [e];
      TraceSnoc(handlers, shouldRun, events[..i], e);
      if shouldRun && e.className in handlers {
        var more := CallHandlers(handlers[e.className], e);
        calls := calls + more;
      }
      i := i + 1;
    }
    assert events[..|events|] == events;
  }

  /** With the switch off no handler is ever called. */
  lemma {:induction false} TraceWhenOff<H, P>(handlers: map<string, seq<H>>, shouldRun: bool, events: seq<Event<P>>)
    ensures !shouldRun ==> Trace(handlers, shouldRun, events) == []
    decreases |events|
  {
    if events != [] {
      TraceWhenOff(handlers, shouldRun, events[..|events| - 1]);
    }
  }

  /** Dispatching two batches one after the other makes the calls of the first batch, then those
      of the second. */
  lemma {:induction false} TraceAppend<H, P>(handlers: map<string, seq<H>>, shouldRun: bool,
                                             a: seq<Event<P>>, b: seq<Event<P>>)
    ensures Trace(handlers, shouldRun, a + b) == Trace(handlers, shouldRun, a) + Trace(handlers, shouldRun, b)
    decreases |b|
  {
    if b == [] {
      assert a + b == a;
    } else {
      var b', last := b[..|b| - 1], b[|b| - 1];
      assert b == b' + [last];
      assert a + b == (a + b') + [last];
      var d := Dispatch(handlers, shouldRun, last);
      calc {
        Trace(handlers, shouldRun, a + b);
        { TraceSnoc(handlers, shouldRun, a + b', last); }
        Trace(handlers, shouldRun, a + b') + d;
        { TraceAppend(handlers, shouldRun, a, b'); }
        (Trace(handlers, shouldRun, a) + Trace(handlers, shouldRun, b')) + d;
        Trace(handlers, shouldRun, a) + (Trace(handlers, shouldRun, b') + d);
        { TraceSnoc(handlers, shouldRun, b', last); }
        Trace(handlers, shouldRun, a) + Trace(handlers, shouldRun, b);
      }
    }
  }

  /** Events are delivered in order: the calls for event `i` come after those for every earlier
      event and before those for every later one. */
  lemma TraceInOrder<H, P>(handlers: map<string, seq<H>>, shouldRun: bool, events: seq<Event<P>>, i: nat)
    requires i < |events|
    ensures Trace(handlers, shouldRun, events) ==
      Trace(handlers, shouldRun, events[..i])
      + Dispatch(handlers, shouldRun, events[i])
      + Trace(handlers, shouldRun, events[i + 1..])
  {
    assert events == events[..i] + [events[i]] + events[i + 1..];
    TraceAppend(handlers, shouldRun, events[..i] + [events[i]], events[i + 1..]);
    TraceAppend(handlers, shouldRun, events[..i], [events[i]]);
    assert Trace(handlers, shouldRun, [events[i]]) == Dispatch(handlers, shouldRun, events[i]) by {
      assert [events[i]][..0] == [];
    }
  }

  /** Cutting out the entry at `i` removes exactly one copy of it. */
  lemma SpliceMultiset(marked: seq<Id>, i: nat)
    requires i < |marked|
    ensures multiset(marked[..i] + marked[i + 1..]) == multiset(marked) - multiset{marked[i]}
  {
    var before, after := marked[..i], marked[i + 1..];
    assert marked == before + [marked[i]] + after;
    assert multiset(marked) == multiset(before) + multiset{marked[i]} + multiset(after);
    assert multiset(before + after) == multiset(before) + multiset(after);
  }

  /** Cutting out the entry at `i` removes one copy of it, and from a list of distinct ids it
      removes exactly that id and keeps the rest distinct. */
  lemma SpliceFacts(marked: seq<Id>, i: nat)
    requires i < |marked|
    ensures multiset(marked[..i] + marked[i + 1..]) == multiset(marked) - multiset{marked[i]}
    ensures Distinct(marked) ==>
      var r := marked[..i] + marked[i + 1..];
      Distinct(r) && forall x :: x in r <==> x in marked && x != marked[i]
  {
    var r := marked[..i] + marked[i + 1..];
    SpliceMultiset(marked, i);
    if Distinct(marked) {
      assert forall k :: 0 <= k < |r| ==> r[k] == (if k < i then marked[k] else marked[k + 1]);
      forall x
        ensures x in r <==> x in marked && x != marked[i]
      {
        if x in marked && x != marked[i] {
          var k :| 0 <= k < |marked| && marked[k] == x;
          assert k != i;
          assert r[if k < i then k else k - 1] == x;
        }
      }
    }
  }

  /** Handlers registered under one name are never called for an event of another class. */
  lemma {:induction false} OnlyMatchingHandlersRun<H, P>(handlers: map<string, seq<H>>, shouldRun: bool,
                                      events: seq<Event<P>>, k: nat)
    requires k < |Trace(handlers, shouldRun, events)|
    ensures var c := Trace(handlers, shouldRun, events)[k];
      c.event in events && c.event.className in handlers && c.handler in handlers[c.event.className]
    decreases |events|
  {
    var init := events[..|events| - 1];
    var last := events[|events| - 1];
    if k < |Trace(handlers, shouldRun, init)| {
      OnlyMatchingHandlersRun(handlers, shouldRun, init, k);
    } else {
      var j := k - |Trace(handlers, shouldRun, init)|;
      assert Trace(handlers, shouldRun, events)[k] == Dispatch(handlers, shouldRun, last)[j];
    }
  }
}

=== FILE: either.dfy ===
/** The two-armed result type: `Left` carries an error, `Right` a success value. */
module Either {

  datatype Either<+L, +R> = Left(left: L) | Right(right: R) {

    /** Type guard answering true exactly on the `Left` arm. */
    predicate IsLeft() {
      Left?
    }

    /** Type guard answering true exactly on the `Right` arm. */
    predicate IsRight() {
      Right?
    }
  }

  /** `left(v)`: wraps an error value; the result answers `isLeft` and not `isRight`. */
  function MakeLeft<L, R>(v: L): (e: Either<L, R>)
    ensures e.IsLeft() && !e.IsRight()
    ensures e.left == v
  {
    Left(v)
  }

  /** `right(v)`: wraps a success value; the result answers `isRight` and not `isLeft`. */
  function MakeRight<L, R>(v: R): (e: Either<L, R>)
    ensures e.IsRight() && !e.IsLeft()
    ensures e.right == v
  {
    Right(v)
  }

  /** Every Either value satisfies exactly one of the two guards. */
  lemma ExactlyOneArm<L, R>(e: Either<L, R>)
    ensures e.IsLeft() != e.IsRight()
  {
  }
}

=== FILE: flows.dfy ===
/** End-to-end flows: a use case changes a package, the package is saved, and the save
    dispatches the package's events to the notification subscribers. */
module Flows {
  import opened Core
  import PackageStatus
  import PackageCode
  import DomainEvents
  import Aggregate = PackageAggregate
  import UseCases
  import opened Notifications

  /** Assigning a package with no pending events and saving it sends exactly one notification:
      the assignment notice to the package's recipient, titled with the request's description or
      the default, naming the (truncated) package name and ending with its code. */
  lemma AssignSendsOneNotification(bus: DomainEvents.Bus<Subscriber>, repos: UseCases.Repos,
                                   req: UseCases.AssignRequest, now: Timestamp,
                                   statusHistoryId: Id, assignHistoryId: Id)
    requires bus.handlers == Subscribed().handlers && bus.shouldRun
    requires UseCases.AssignPackage(repos, req, now, statusHistoryId, assignHistoryId).IsRight()
    requires repos.packages[req.packageId].events == []
    ensures var saved := UseCases.AssignPackage(repos, req, now, statusHistoryId, assignHistoryId).right;
      var q := saved.value;
      var r := Persist(MarkRaised(bus, q), saved.repos.packages, q);
      r.notifications == [Notification(req.description.GetOr(AssignedTitle),
                                       AssignedContent(q.name, q.code.value), q.recipientId)]
  {
    var saved := UseCases.AssignPackage(repos, req, now, statusHistoryId, assignHistoryId).right;
    var q := saved.value;
    UseCases.AssignRecordsTwoHistories(repos, req, now, statusHistoryId, assignHistoryId);
    assert |q.events| == 1;
    OneEventOneNotification(MarkRaised(bus, q), saved.repos.packages, q);
  }

  /** `register-package` never marks the package it creates (it raises no event), so saving it
      sends no notification. */
  lemma RegisterPackageSendsNothing(bus: DomainEvents.Bus<Subscriber>, repos: UseCases.Repos,
                                    req: UseCases.RegisterPackageRequest, newId: Id, clock: Timestamp,
                                    random: seq<PackageCode.Digit32>, now: Timestamp)
    requires |random| == 16
    requires newId !in bus.marked
    requires UseCases.RegisterPackage(repos, req, newId, clock, random, now).IsRight()
    ensures var saved := UseCases.RegisterPackage(repos, req, newId, clock, random, now).right;
      Persist(MarkRaised(bus, saved.value), saved.repos.packages, saved.value).notifications == []
  {
  }

  /** A package marked as registered and then saved sends exactly one notification: the
      registration notice with the default title, since the registration history carries no
      description. */
  lemma MarkAsRegisteredSendsOneNotification(bus: DomainEvents.Bus<Subscriber>,
                                             packages: map<Id, Aggregate.Package>, p: Aggregate.Package,
                                             authorId: Id, now: Timestamp, historyId: Id)
    requires bus.handlers == Subscribed().handlers && bus.shouldRun
    requires p.events == []
    ensures var q := Aggregate.MarkAsRegistered(p, authorId, now, historyId);
      Persist(MarkRaised(bus, q), packages, q).notifications
        == [Notification(RegisteredTitle, RegisteredContent(p.name, p.code.value), p.recipientId)]
  {
    var q := Aggregate.MarkAsRegistered(p, authorId, now, historyId);
    OneEventOneNotification(MarkRaised(bus, q), packages, q);
  }
}

=== FILE: notifications.dfy ===
/** The two notification subscribers: each registers one handler with the dispatcher, and the
    handler turns a package event into one notification for the package's recipient. Handlers
    are values of `Subscriber`; what a handler call produces is given by `Handle`. */
module Notifications {
  import opened Core
  import DomainEvents
  import Aggregate = PackageAggregate

  datatype Notification = Notification(title: string, content: string, recipientId: Id)

  /** The two subscriber classes, standing for the handlers they register. */
  datatype Subscriber = OnPackageRegisteredSendNotification | OnPackageAssignedSendNotification

  const RegisteredTitle := "Package registered"
  const AssignedTitle := "Package assigned to a delivery person"
  const RegisteredNameLimit: nat := 20
  const AssignedNameLimit: nat := 10

  /** `name.length > limit ? name.substring(0, limit).concat('...') : name`. */
  function Truncate(name: string, limit: nat): (r: string)
    ensures |name| <= limit ==> r == name
    ensures |name| > limit ==> |r| == limit + 3 && r[..limit] == name[..limit] && r[limit..] == "..."
    ensures |r| <= limit + 3
  {
    if |name| > limit then name[..limit] + "..." else name
  }

  /** The registered notification's text: the (truncated) name in quotes, then the code last. */
  function RegisteredContent(name: string, code: string): (r: string)
    ensures var prefix := "Your package \"";
      |r| >= |prefix| && r[..|prefix|] == prefix
    ensures var prefix, t := "Your package \"", Truncate(name, RegisteredNameLimit);
      |r| >= |prefix| + |t| && r[|prefix|..|prefix| + |t|] == t
    ensures var n := |r| - |code|; 0 <= n && r[n..] == code
  {
    "Your package \"" + Truncate(name, RegisteredNameLimit)
      + "\" has been registered successfully. Package code: " + code
  }

  /** The assigned notification's text: the (truncated) name, then the code last. */
  function AssignedContent(name: string, code: string): (r: string)
    ensures var prefix := "Delivery person was assigned to get a package: ";
      |r| >= |prefix| && r[..|prefix|] == prefix
    ensures var prefix, t := "Delivery person was assigned to get a package: ", Truncate(name, AssignedNameLimit);
      |r| >= |prefix| + |t| && r[|prefix|..|prefix| + |t|] == t
    ensures var n := |r| - |code|; 0 <= n && r[n..] == code
  {
    "Delivery person was assigned to get a package: " + Truncate(name, AssignedNameLimit)
      + ", the package code is: " + code
  }

  /** `setupSubscriptions` of each subscriber, run by its constructor. */
  function SetupRegistered(bus: DomainEvents.Bus<Subscriber>): (r: DomainEvents.Bus<Subscriber>)
    ensures Aggregate.RegisteredEventName in r.handlers
    ensures Aggregate.RegisteredEventName in bus.handlers ==>
      r.handlers[Aggregate.RegisteredEventName]
        == bus.handlers[Aggregate.RegisteredEventName] + [OnPackageRegisteredSendNotification]
    ensures Aggregate.RegisteredEventName !in bus.handlers ==>
      r.handlers[Aggregate.RegisteredEventName] == [OnPackageRegisteredSendNotification]
    ensures r.marked == bus.marked && r.shouldRun == bus.shouldRun
  {
    DomainEvents.Register(bus, OnPackageRegisteredSendNotification, Aggregate.RegisteredEventName)
  }

  function SetupAssigned(bus: DomainEvents.Bus<Subscriber>): (r: DomainEvents.Bus<Subscriber>)
    ensures Aggregate.AssignedEventName in r.handlers
    ensures Aggregate.AssignedEventName in bus.handlers ==>
      r.handlers[Aggregate.AssignedEventName]
        == bus.handlers[Aggregate.AssignedEventName] + [OnPackageAssignedSendNotification]
    ensures Aggregate.AssignedEventName !in bus.handlers ==>
      r.handlers[Aggregate.AssignedEventName] == [OnPackageAssignedSendNotification]
    ensures r.marked == bus.marked && r.shouldRun == bus.shouldRun
  {
    DomainEvents.Register(bus, OnPackageAssignedSendNotification, Aggregate.AssignedEventName)
  }

  /** One handler invocation: look the package up by the event's package id and, if it exists,
      send one notification to its recipient. The title is the history's description, or the
      subscriber's default when it is null. */
  function Handle(sub: Subscriber, e: Aggregate.PackageEvent, packages: map<Id, Aggregate.Package>)
    : (r: Option<Notification>)
    ensures e.packageId !in packages ==> r.None?
    ensures e.packageId in packages ==> r.Some? && r.value.recipientId == packages[e.packageId].recipientId
    ensures r.Some? && e.history.description.Some? ==> r.value.title == e.history.description.value
    ensures r.Some? && e.history.description.None? ==>
      r.value.title == (if sub.OnPackageRegisteredSendNotification? then RegisteredTitle else AssignedTitle)
    ensures r.Some? ==>
      var p := packages[e.packageId];
      r.value.content == (if sub.OnPackageRegisteredSendNotification? then RegisteredContent(p.name, p.code.value)
                          else AssignedContent(p.name, p.code.value))
  {
    if e.packageId !in packages then None
    else
      var p := packages[e.packageId];
      match sub
      case OnPackageRegisteredSendNotification =>
        Some(Notification(e.history.description.GetOr(RegisteredTitle),
                          RegisteredContent(p.name, p.code.value), p.recipientId))
      case OnPackageAssignedSendNotification =>
        Some(Notification(e.history.description.GetOr(AssignedTitle),
                          AssignedContent(p.name, p.code.value), p.recipientId))
  }

  /** The results of `f` on the calls that produced one, in call order. */
  function Collect<C, T>(calls: seq<C>, f: C -> Option<T>): (r: seq<T>)
    ensures |r| <= |calls|
    ensures (forall k :: 0 <= k < |calls| ==> f(calls[k]).Some?) ==>
      |r| == |calls| && forall k :: 0 <= k < |calls| ==> f(calls[k]) == Some(r[k])
    ensures (forall k :: 0 <= k < |calls| ==> f(calls[k]).None?) ==> r == []
    decreases |calls|
  {
    if calls == [] then []
    else
      var init, last := calls[..|calls| - 1], calls[|calls| - 1];
      assert forall k :: 0 <= k < |init| ==> init[k] == calls[k];
      var sent := f(last);
      var rest := Collect(init, f);
      AppendSent(calls, f, rest);
      rest + (if sent.Some? then [sent.value] else [])
  }

  /** The notifications sent by a sequence of handler calls, in call order. */
  function Deliver(calls: seq<DomainEvents.Call<Subscriber, Aggregate.PackageEvent>>,
                   packages: map<Id, Aggregate.Package>): (r: seq<Notification>)
    ensures |r| <= |calls|
    ensures (forall k :: 0 <= k < |calls| ==> calls[k].event.payload.packageId in packages) ==>
      |r| == |calls| &&
      forall k :: 0 <= k < |calls| ==> Handle(calls[k].handler, calls[k].event.payload, packages) == Some(r[k])
    ensures (forall k :: 0 <= k < |calls| ==> calls[k].event.payload.packageId !in packages) ==> r == []
  {
    var f := (c: DomainEvents.Call<Subscriber, Aggregate.PackageEvent>) =>
      Handle(c.handler, c.event.payload, packages);
    assert forall k :: 0 <= k < |calls| ==> f(calls[k]) == Handle(calls[k].handler, calls[k].event.payload, packages);
    Collect(calls, f)
  }

  /** One step of `Deliver`, for any handling function `f`: appending the last call's result keeps
      the per-call correspondence. */
  lemma AppendSent<C, T>(calls: seq<C>, f: C -> Option<T>, rest: seq<T>)
    requires calls != []
    requires (forall k :: 0 <= k < |calls| - 1 ==> f(calls[k]).Some?) ==>
      |rest| == |calls| - 1 && forall k :: 0 <= k < |calls| - 1 ==> f(calls[k]) == Some(rest[k])
    ensures var sent := f(calls[|calls| - 1]);
      var r := rest + (if sent.Some? then [sent.value] else []);
      (forall k :: 0 <= k < |calls| ==> f(calls[k]).Some?) ==>
      |r| == |calls| && forall k :: 0 <= k < |calls| ==> f(calls[k]) == Some(r[k])
  {
    var n := |calls| - 1;
    if forall k :: 0 <= k < |calls| ==> f(calls[k]).Some? {
      var sent := f(calls[n]);
      var r := rest + [sent.value];
      assert forall k :: 0 <= k < n ==> f(calls[k]).Some?;
      forall k | 0 <= k < |calls|
        ensures f(calls[k]) == Some(r[k])
      {
        if k < n {
          assert r[k] == rest[k];
        }
      }
    }
  }

  /** A package's pending events as the dispatcher sees them. */
  function PendingEvents(p: Aggregate.Package): (r: seq<DomainEvents.Event<Aggregate.PackageEvent>>)
    ensures |r| == |p.events|
    ensures forall i :: 0 <= i < |r| ==> r[i] == Aggregate.AsEvent(p.events[i])
  {
    seq(|p.events|, i requires 0 <= i < |p.events| => Aggregate.AsEvent(p.events[i]))
  }

  /** Raising events marks the package for dispatch, as `addDomainEvent` does. */
  function MarkRaised(bus: DomainEvents.Bus<Subscriber>, p: Aggregate.Package): (r: DomainEvents.Bus<Subscriber>)
    ensures p.events != [] ==> p.id in r.marked
    ensures r.handlers == bus.handlers && r.shouldRun == bus.shouldRun
  {
    if p.events == [] then bus else DomainEvents.MarkEntityForDispatch(bus, p.id)
  }

  /** What persisting a package leaves behind. */
  datatype Persisted = Persisted(bus: DomainEvents.Bus<Subscriber>, packages: map<Id, Aggregate.Package>,
                                 notifications: seq<Notification>)

  /** A repository save that dispatches the saved package's events afterwards: the package is
      stored, its events are dispatched and cleared, and every handler call runs against the
      stored packages. */
  function Persist(bus: DomainEvents.Bus<Subscriber>, packages: map<Id, Aggregate.Package>, p: Aggregate.Package)
    : (r: Persisted)
    ensures p.id in r.packages
    ensures p.id in bus.marked ==>
      && r.packages == packages[p.id := p.(events := [])]
      && r.bus.handlers == bus.handlers && r.bus.shouldRun == bus.shouldRun
      && multiset(r.bus.marked) == multiset(bus.marked) - multiset{p.id}
      && (forall x :: x in bus.marked && x != p.id ==> x in r.bus.marked)
    ensures p.id in bus.marked && DomainEvents.Distinct(bus.marked) ==> p.id !in r.bus.marked
    ensures p.id !in bus.marked ==> r.bus == bus && r.notifications == [] && r.packages == packages[p.id := p]
    ensures p.id in bus.marked ==>
      r.notifications == Deliver(DomainEvents.Trace(bus.handlers, bus.shouldRun, PendingEvents(p)), r.packages)
    ensures !bus.shouldRun ==> r.notifications == []
  {
    var out := DomainEvents.DispatchEventsForEntity(bus, p.id, PendingEvents(p));
    var stored := packages[p.id := if p.id in bus.marked then p.(events := []) else p];
    DeliverEmpty(stored);
    KeptMarks(bus.marked, out.bus.marked, p.id);
    Persisted(out.bus, stored, Deliver(out.calls, stored))
  }

  /** Removing one copy of `id` from a list keeps every other entry. */
  lemma KeptMarks(before: seq<Id>, after: seq<Id>, id: Id)
    ensures multiset(after) == multiset(before) - multiset{id} ==>
      forall x :: x in before && x != id ==> x in after
  {
    forall x | multiset(after) == multiset(before) - multiset{id} && x in before && x != id
      ensures x in after
    {
      assert x in multiset(before);
      assert x in multiset(after);
    }
  }

  lemma DeliverEmpty(packages: map<Id, Aggregate.Package>)
    ensures Deliver([], packages) == []
  {
  }

  /** The handler table once both subscribers have been constructed on a fresh dispatcher. */
  function Subscribed(): (b: DomainEvents.Bus<Subscriber>)
    ensures b.handlers == map[Aggregate.RegisteredEventName := [OnPackageRegisteredSendNotification],
                              Aggregate.AssignedEventName := [OnPackageAssignedSendNotification]]
    ensures b.marked == [] && b.shouldRun
  {
    SetupAssigned(SetupRegistered(DomainEvents.Initial()))
  }

  /** The subscriber whose handler is registered for the event's class. */
  function SubscriberFor(e: Aggregate.PackageEvent): Subscriber {
    if e.PackageRegistered? then OnPackageRegisteredSendNotification else OnPackageAssignedSendNotification
  }

  /** Dispatching a single package event to the standard subscribers calls exactly the subscriber
      registered for its class. */
  lemma DispatchCallsItsSubscriber(e: Aggregate.PackageEvent)
    ensures DomainEvents.Dispatch(Subscribed().handlers, true, Aggregate.AsEvent(e))
      == [DomainEvents.Call(SubscriberFor(e), Aggregate.AsEvent(e))]
  {
  }

  lemma SingleEventCallsItsSubscriber(e: Aggregate.PackageEvent)
    ensures DomainEvents.Trace(Subscribed().handlers, true, [Aggregate.AsEvent(e)])
      == [DomainEvents.Call(SubscriberFor(e), Aggregate.AsEvent(e))]
  {
    assert [Aggregate.AsEvent(e)][..0] == [];
    DispatchCallsItsSubscriber(e);
  }

  /** Dispatching a run of package events to the standard subscribers calls, for each event in
      order, exactly the subscriber registered for its class, and nothing else. */
  lemma {:induction false} EachEventCallsItsSubscriber(evs: seq<DomainEvents.Event<Aggregate.PackageEvent>>)
    requires forall i :: 0 <= i < |evs| ==> evs[i] == Aggregate.AsEvent(evs[i].payload)
    ensures var t := DomainEvents.Trace(Subscribed().handlers, true, evs);
      |t| == |evs| && forall k :: 0 <= k < |evs| ==> t[k] == DomainEvents.Call(SubscriberFor(evs[k].payload), evs[k])
    decreases |evs|
  {
    if evs != [] {
      var h := Subscribed().handlers;
      var init, last := evs[..|evs| - 1], evs[|evs| - 1];
      assert forall i :: 0 <= i < |init| ==> init[i] == evs[i];
      EachEventCallsItsSubscriber(init);
      DispatchCallsItsSubscriber(last.payload);
      var before := DomainEvents.Trace(h, true, init);
      assert DomainEvents.Trace(h, true, evs) == before + [DomainEvents.Call(SubscriberFor(last.payload), last)];
      CallsSnoc(evs, before);
    }
  }

  /** Extending the per-event calls of all but the last event by the last event's call gives the
      per-event calls of all of them. */
  lemma CallsSnoc(evs: seq<DomainEvents.Event<Aggregate.PackageEvent>>,
                  before: seq<DomainEvents.Call<Subscriber, Aggregate.PackageEvent>>)
    requires evs != [] && |before| == |evs| - 1
    requires forall k :: 0 <= k < |before| ==> before[k] == DomainEvents.Call(SubscriberFor(evs[k].payload), evs[k])
    ensures var t := before + [DomainEvents.Call(SubscriberFor(evs[|evs| - 1].payload), evs[|evs| - 1])];
      |t| == |evs| && forall k :: 0 <= k < |evs| ==> t[k] == DomainEvents.Call(SubscriberFor(evs[k].payload), evs[k])
  {
  }

  /** A package whose only pending event is `e`, saved while marked with the standard subscribers
      in place, yields exactly one notification: the handler's, for the stored package. */
  lemma OneEventOneNotification(bus: DomainEvents.Bus<Subscriber>, packages: map<Id, Aggregate.Package>,
                                p: Aggregate.Package)
    requires bus.handlers == Subscribed().handlers && bus.shouldRun
    requires p.id in bus.marked
    requires |p.events| == 1 && p.events[0].packageId == p.id
    ensures var e := p.events[0];
      var r := Persist(bus, packages, p);
      r.notifications == [Handle(SubscriberFor(e), e, r.packages).value]
  {
    EveryEventOneNotification(bus, packages, p);
  }

  /** A package whose pending events are all about itself, saved while marked with the standard
      subscribers in place, yields one notification per event, in event order, each the handler's
      for that event's subscriber. */
  lemma EveryEventOneNotification(bus: DomainEvents.Bus<Subscriber>, packages: map<Id, Aggregate.Package>,
                                  p: Aggregate.Package)
    requires bus.handlers == Subscribed().handlers && bus.shouldRun
    requires p.id in bus.marked
    requires forall i :: 0 <= i < |p.events| ==> p.events[i].packageId == p.id
    ensures var r := Persist(bus, packages, p);
      |r.notifications| == |p.events| &&
      forall k :: 0 <= k < |p.events| ==>
        r.notifications[k] == Handle(SubscriberFor(p.events[k]), p.events[k], r.packages).value
  {
    var r := Persist(bus, packages, p);
    var evs := PendingEvents(p);
    var calls := DomainEvents.Trace(Subscribed().handlers, true, evs);
    assert r.notifications == Deliver(calls, r.packages);
    assert |calls| == |p.events| && forall k :: 0 <= k < |calls| ==>
      calls[k].handler == SubscriberFor(p.events[k]) && calls[k].event.payload == p.events[k] by {
      forall i | 0 <= i < |evs|
        ensures evs[i].payload == p.events[i] && evs[i] == Aggregate.AsEvent(evs[i].payload)
      {
        assert evs[i] == Aggregate.AsEvent(p.events[i]);
      }
      EachEventCallsItsSubscriber(evs);
      forall k | 0 <= k < |calls|
        ensures calls[k].handler == SubscriberFor(p.events[k]) && calls[k].event.payload == p.events[k]
      {
        assert calls[k] == DomainEvents.Call(SubscriberFor(evs[k].payload), evs[k]);
      }
    }
    NotificationPerCall(calls, p.events, r.packages, p.id);
  }

  /** When call `k` is the subscriber call for event `k` and every event is about a stored
      package, delivery yields the handler's notification for each event in turn. */
  lemma NotificationPerCall(calls: seq<DomainEvents.Call<Subscriber, Aggregate.PackageEvent>>,
                            events: seq<Aggregate.PackageEvent>, packages: map<Id, Aggregate.Package>, id: Id)
    requires |calls| == |events| && id in packages
    requires forall k :: 0 <= k < |events| ==> events[k].packageId == id
    requires forall k :: 0 <= k < |calls| ==>
      calls[k].handler == SubscriberFor(events[k]) && calls[k].event.payload == events[k]
    ensures var r := Deliver(calls, packages);
      |r| == |events| &&
      forall k :: 0 <= k < |events| ==> r[k] == Handle(SubscriberFor(events[k]), events[k], packages).value
  {
    var r := Deliver(calls, packages);
    assert forall k :: 0 <= k < |calls| ==> calls[k].event.payload.packageId in packages;
    forall k | 0 <= k < |events|
      ensures r[k] == Handle(SubscriberFor(events[k]), events[k], packages).value
    {
      assert Handle(calls[k].handler, calls[k].event.payload, packages) == Some(r[k]);
    }
  }

  /** With the off switch set no notification is sent, yet the package's events are cleared and
      its mark removed. */
  lemma SwitchedOffSendsNothing(bus: DomainEvents.Bus<Subscriber>, packages: map<Id, Aggregate.Package>,
                                p: Aggregate.Package)
    requires !bus.shouldRun && p.id in bus.marked && DomainEvents.Distinct(bus.marked)
    ensures Persist(bus, packages, p).notifications == []
    ensures Persist(bus, packages, p).packages[p.id].events == []
    ensures p.id !in Persist(bus, packages, p).bus.marked
  {
  }
}

=== FILE: package.dfy ===
/** The Package aggregate as written in its own file: status updates gated by the transition
    table, `updatedAt`/`deliveredAt` stamping, and delivery-person assignment. */
module Package {
  import opened Core
  import opened Either
  import opened PackageStatus
  import PackageCode

  datatype Package = Package(
    id: Id,
    code: PackageCode.PackageCode,
    recipientName: string,
    recipientAddress: string,
    deliveryPersonId: Option<Id>,
    status: Status,
    attachment: Option<Id>,
    createdAt: Timestamp,
    updatedAt: Option<Timestamp>,
    deliveredAt: Option<Timestamp>)

  /** The properties `create` accepts; absent ones become `None`. */
  datatype PackageProps = PackageProps(
    id: Id,
    code: Option<PackageCode.PackageCode>,
    recipientName: string,
    recipientAddress: string,
    deliveryPersonId: Option<Id>,
    status: Option<Status>,
    attachment: Option<Id>,
    createdAt: Option<Timestamp>,
    updatedAt: Option<Timestamp>,
    deliveredAt: Option<Timestamp>)

  /** `Package.create`: code defaults to a generated one, status to pending, the delivery person
      to null and `createdAt` to `now`; `updatedAt` and `deliveredAt` always start null. */
  function Create(props: PackageProps, clock: Timestamp, random: seq<PackageCode.Digit32>, now: Timestamp)
    : (r: Either<PackageCode.CodeError, Package>)
    requires |random| == 16
    ensures props.code.Some? ==> r.IsRight() && r.right.code == props.code.value
    ensures props.code.None? ==> (r.IsRight() <==> PackageCode.Generate(clock, random, now).IsRight())
    ensures props.code.None? && r.IsRight() ==> r.right.code == PackageCode.Generate(clock, random, now).right
    ensures r.IsRight() ==>
      var p := r.right;
      && p.id == props.id
      && p.recipientName == props.recipientName
      && p.recipientAddress == props.recipientAddress
      && p.attachment == props.attachment
      && p.status == props.status.GetOr(Pending)
      && p.deliveryPersonId == props.deliveryPersonId
      && p.createdAt == props.createdAt.GetOr(now)
      && p.updatedAt.None? && p.deliveredAt.None?
  {
    var code :=
      if props.code.Some? then Right(props.code.value)
      else PackageCode.Generate(clock, random, now);
    match code
    case Left(e) => Left(e)
    case Right(c) =>
      Right(Package(props.id, c, props.recipientName, props.recipientAddress,
                    props.deliveryPersonId, props.status.GetOr(Pending), props.attachment,
                    props.createdAt.GetOr(now), None, None))
  }

  /** `updateStatus`: a legal move sets the status and stamps `updatedAt`, and `deliveredAt`
      too when the new status is delivered; an illegal move fails before anything is written. */
  function UpdateStatus(p: Package, newStatus: Status, now: Timestamp): (r: Either<StatusError, Package>)
    ensures r.IsRight() <==> CanTransitionTo(p.status, newStatus)
    ensures r.IsLeft() ==> r.left == InvalidatePackageStatusError
    ensures r.IsRight() ==>
      && r.right.status == newStatus
      && r.right.updatedAt == Some(now)
      && (IsDelivered(newStatus) ==> r.right.deliveredAt == Some(now))
      && (!IsDelivered(newStatus) ==> r.right.deliveredAt == p.deliveredAt)
      && r.right.(status := p.status, updatedAt := p.updatedAt, deliveredAt := p.deliveredAt) == p
  {
    match TransitionTo(p.status, newStatus)
    case Left(e) => Left(e)
    case Right(s) =>
      var updated := p.(status := s, updatedAt := Some(now));
      Right(if IsDelivered(newStatus) then updated.(deliveredAt := Some(now)) else updated)
  }

  /** `assignDeliveryPerson`: sets the delivery person and stamps `updatedAt`; nothing else
      changes. */
  function AssignDeliveryPerson(p: Package, deliveryPersonId: Id, now: Timestamp): (r: Package)
    ensures r.deliveryPersonId == Some(deliveryPersonId)
    ensures r.updatedAt == Some(now)
    ensures r.(deliveryPersonId := p.deliveryPersonId, updatedAt := p.updatedAt) == p
  {
    p.(deliveryPersonId := Some(deliveryPersonId), updatedAt := Some(now))
  }

  /** `deliveredAt` is set exactly when the package is delivered. */
  predicate DeliveredConsistent(p: Package) {
    p.deliveredAt.Some? <==> p.status == Delivered
  }

  /** A mutation through the aggregate's own methods. */
  datatype Mutation =
    | SetStatus(newStatus: Status, at: Timestamp)
    | Assign(deliveryPersonId: Id, at: Timestamp)

  /** Applies mutations in order; a rejected status update aborts the sequence, as the thrown
      error would. */
  function Run(p: Package, ms: seq<Mutation>): Either<StatusError, Package>
    decreases |ms|
  {
    if ms == [] then Right(p)
    else match ms[0]
      case Assign(d, at) => Run(AssignDeliveryPerson(p, d, at), ms[1..])
      case SetStatus(s, at) =>
        match UpdateStatus(p, s, at)
        case Left(e) => Left(e)
        case Right(q) => Run(q, ms[1..])
  }

  /** A freshly created package satisfies the invariant unless it was created already delivered. */
  lemma CreateEstablishesConsistency(props: PackageProps, clock: Timestamp,
                                     random: seq<PackageCode.Digit32>, now: Timestamp)
    requires |random| == 16
    requires props.status != Some(Delivered)
    requires Create(props, clock, random, now).IsRight()
    ensures DeliveredConsistent(Create(props, clock, random, now).right)
  {
  }

  /** Creating (or rehydrating) a package in the delivered state drops its `deliveredAt`:
      `create` overrides it with null whatever status is supplied. */
  lemma CreateDeliveredLosesDeliveredAt(props: PackageProps, clock: Timestamp,
                                        random: seq<PackageCode.Digit32>, now: Timestamp)
    requires |random| == 16
    requires props.status == Some(Delivered) && props.deliveredAt.Some?
    requires Create(props, clock, random, now).IsRight()
    ensures !DeliveredConsistent(Create(props, clock, random, now).right)
  {
  }

  /** Both methods keep `deliveredAt != null <==> status == delivered`; this rests on delivered
      being final, so no update can leave it with a stale `deliveredAt`. */
  lemma MutationsPreserveConsistency(p: Package, m: Mutation)
    requires DeliveredConsistent(p)
    ensures m.Assign? ==> DeliveredConsistent(AssignDeliveryPerson(p, m.deliveryPersonId, m.at))
    ensures m.SetStatus? && UpdateStatus(p, m.newStatus, m.at).IsRight() ==>
      DeliveredConsistent(UpdateStatus(p, m.newStatus, m.at).right)
  {
    if m.SetStatus? && p.status == Delivered {
      FinalIffEmptyRow(p.status);
    }
  }

  /** Every package reached from a consistent one through the aggregate's methods is consistent. */
  lemma {:induction false} RunPreservesConsistency(p: Package, ms: seq<Mutation>)
    requires DeliveredConsistent(p)
    requires Run(p, ms).IsRight()
    ensures DeliveredConsistent(Run(p, ms).right)
    decreases |ms|
  {
    if ms != [] {
      MutationsPreserveConsistency(p, ms[0]);
      match ms[0]
      case Assign(d, at) =>
        RunPreservesConsistency(AssignDeliveryPerson(p, d, at), ms[1..]);
      case SetStatus(s, at) =>
        RunPreservesConsistency(UpdateStatus(p, s, at).right, ms[1..]);
    }
  }

  /** Once delivered, every further status update fails and the package stays delivered through
      any sequence of mutations. */
  lemma {:induction false} DeliveredIsFinal(p: Package, ms: seq<Mutation>, s: Status, now: Timestamp)
    requires p.status == Delivered
    ensures UpdateStatus(p, s, now) == Left(InvalidatePackageStatusError)
    ensures Run(p, ms).IsRight() ==> Run(p, ms).right.status == Delivered
    decreases |ms|
  {
    FinalIffEmptyRow(Delivered);
    if ms != [] && ms[0].Assign? {
      DeliveredIsFinal(AssignDeliveryPerson(p, ms[0].deliveryPersonId, ms[0].at), ms[1..], s, now);
    }
  }
}

=== FILE: package_aggregate.dfy ===
/** The Package aggregate as the use cases and the notification subscribers call it: a newer
    draft than the one in `package.ts`, whose own source is not part of this model. Its
    behaviour is fixed here from its call sites and tests: `updateStatus(status, authorId)`
    returns a result and records a history, `assignDeliveryPerson` takes four arguments,
    records a history and raises `PackageAssignedToADeliveryPersonEvent`, and
    `markAsRegistered` raises `PackageRegisteredEvent`. */
module PackageAggregate {
  import opened Core
  import opened Either
  import opened PackageStatus
  import PackageCode
  import History = PackageHistory
  import Draft = Package
  import DomainEvents

  /** The domain events a package raises. Both carry the history written with them and the
      package's id. */
  datatype PackageEvent =
    | PackageRegistered(history: History.PackageHistory, packageId: Id)
    | PackageAssigned(history: History.PackageHistory, packageId: Id)

  /** The class names the dispatcher keys handlers by. */
  const RegisteredEventName := "PackageRegisteredEvent"
  const AssignedEventName := "PackageAssignedToADeliveryPersonEvent"

  /** An event as handed to the dispatcher, tagged with its class name. */
  function AsEvent(e: PackageEvent): (r: DomainEvents.Event<PackageEvent>)
    ensures r.payload == e
    ensures r.className == RegisteredEventName <==> e.PackageRegistered?
    ensures r.className == AssignedEventName <==> e.PackageAssigned?
  {
    match e
    case PackageRegistered(_, _) => DomainEvents.Event(RegisteredEventName, e)
    case PackageAssigned(_, _) => DomainEvents.Event(AssignedEventName, e)
  }

  datatype Package = Package(
    id: Id,
    name: string,
    code: PackageCode.PackageCode,
    recipientId: Id,
    recipientAddress: string,
    authorId: Id,
    deliveryPersonId: Option<Id>,
    status: Status,
    attachment: Option<Id>,
    histories: seq<History.PackageHistory>,
    events: seq<PackageEvent>,
    createdAt: Timestamp,
    updatedAt: Option<Timestamp>,
    deliveredAt: Option<Timestamp>)

  /** The fields this draft shares with the package of `package.ts`. */
  function Project(p: Package): Draft.Package {
    Draft.Package(p.id, p.code, p.name, p.recipientAddress, p.deliveryPersonId, p.status,
                  p.attachment, p.createdAt, p.updatedAt, p.deliveredAt)
  }

  /** `Package.create` as `register-package` calls it: no history, no pending events, and
      `updatedAt`/`deliveredAt` null. */
  function Create(id: Id, name: string, recipientId: Id, recipientAddress: string, status: Status,
                  code: PackageCode.PackageCode, deliveryPersonId: Option<Id>, authorId: Id,
                  now: Timestamp): (p: Package)
    ensures p.id == id && p.name == name && p.recipientId == recipientId
    ensures p.recipientAddress == recipientAddress && p.status == status && p.code == code
    ensures p.deliveryPersonId == deliveryPersonId && p.authorId == authorId
    ensures p.histories == [] && p.events == [] && p.attachment.None?
    ensures p.createdAt == now && p.updatedAt.None? && p.deliveredAt.None?
  {
    Package(id, name, code, recipientId, recipientAddress, authorId, deliveryPersonId, status,
            None, [], [], now, None, None)
  }

  /** `updateStatus(status, authorId)`: a legal move updates the package exactly as `package.ts`
      does and appends one history from the old to the new status; an illegal move returns the
      status error and leaves the package as it was. */
  function UpdateStatus(p: Package, status: Status, authorId: Id, now: Timestamp, historyId: Id)
    : (r: Either<StatusError, Package>)
    ensures r.IsRight() <==> CanTransitionTo(p.status, status)
    ensures r.IsLeft() ==> r.left == InvalidatePackageStatusError
    ensures r.IsRight() ==>
      && r.right.status == status
      && r.right.events == p.events
      && r.right.(status := p.status, updatedAt := p.updatedAt, deliveredAt := p.deliveredAt,
                  histories := p.histories) == p
      && |r.right.histories| == |p.histories| + 1
      && r.right.histories[..|p.histories|] == p.histories
      && var h := r.right.histories[|p.histories|];
         && h.fromStatus == Some(p.status) && h.toStatus == status && h.authorId == authorId
         && h.packageId == p.id && h.id == historyId
  {
    match Draft.UpdateStatus(Project(p), status, now)
    case Left(e) => Left(e)
    case Right(d) =>
      var h := History.Create(
        History.HistoryProps(p.id, Some(p.status), status, authorId, p.deliveryPersonId, None, None),
        Some(historyId), historyId, now);
      assert (p.histories + [h])[..|p.histories|] == p.histories;
      Right(p.(status := d.status, updatedAt := d.updatedAt, deliveredAt := d.deliveredAt,
               histories := p.histories + [h]))
  }

  /** `assignDeliveryPerson(id, authorId, previousStatus, description)`: sets the delivery person,
      stamps `updatedAt`, records a history from `previousStatus` to the current status naming the
      new delivery person, and raises the assignment event carrying that history. */
  function AssignDeliveryPerson(p: Package, deliveryPersonId: Id, authorId: Id, previousStatus: Status,
                                description: Option<string>, now: Timestamp, historyId: Id): (r: Package)
    ensures r.deliveryPersonId == Some(deliveryPersonId) && r.updatedAt == Some(now)
    ensures r.status == p.status && r.code == p.code && r.deliveredAt == p.deliveredAt
    ensures r.(deliveryPersonId := p.deliveryPersonId, updatedAt := p.updatedAt,
               histories := p.histories, events := p.events) == p
    ensures |r.histories| == |p.histories| + 1 && r.histories[..|p.histories|] == p.histories
    ensures var h := r.histories[|p.histories|];
      && h.fromStatus == Some(previousStatus) && h.toStatus == p.status
      && h.deliveryPersonId == Some(deliveryPersonId) && h.authorId == authorId
      && h.description == description && h.packageId == p.id
      && r.events == p.events + [PackageAssigned(h, p.id)]
  {
    var h := History.Create(
      History.HistoryProps(p.id, Some(previousStatus), p.status, authorId, Some(deliveryPersonId),
                           description, None),
      Some(historyId), historyId, now);
    assert (p.histories + [h])[..|p.histories|] == p.histories;
    p.(deliveryPersonId := Some(deliveryPersonId), updatedAt := Some(now),
       histories := p.histories + [h], events := p.events + [PackageAssigned(h, p.id)])
  }

  /** `markAsRegistered(authorId)`: records the registration history (no previous status) and
      raises the registration event carrying it. */
  function MarkAsRegistered(p: Package, authorId: Id, now: Timestamp, historyId: Id): (r: Package)
    ensures r.(histories := p.histories, events := p.events) == p
    ensures |r.histories| == |p.histories| + 1 && r.histories[..|p.histories|] == p.histories
    ensures var h := r.histories[|p.histories|];
      && h.fromStatus.None? && h.toStatus == p.status && h.authorId == authorId
      && h.packageId == p.id
      && r.events == p.events + [PackageRegistered(h, p.id)]
  {
    var h := History.Create(
      History.HistoryProps(p.id, None, p.status, authorId, p.deliveryPersonId, None, None),
      Some(historyId), historyId, now);
    assert (p.histories + [h])[..|p.histories|] == p.histories;
    p.(histories := p.histories + [h], events := p.events + [PackageRegistered(h, p.id)])
  }

  /** The result-returning `updateStatus` agrees with the one in `package.ts` on every field the
      two drafts share: it succeeds on the same moves and produces the same package. */
  lemma UpdateStatusAgreesWithDraft(p: Package, status: Status, authorId: Id, now: Timestamp, historyId: Id)
    ensures UpdateStatus(p, status, authorId, now, historyId).IsRight()
        <==> Draft.UpdateStatus(Project(p), status, now).IsRight()
    ensures UpdateStatus(p, status, authorId, now, historyId).IsRight() ==>
      Project(UpdateStatus(p, status, authorId, now, historyId).right)
        == Draft.UpdateStatus(Project(p), status, now).right
  {
  }

  /** The four-argument assignment agrees with the one-argument one of `package.ts`. */
  lemma AssignAgreesWithDraft(p: Package, deliveryPersonId: Id, authorId: Id, previousStatus: Status,
                              description: Option<string>, now: Timestamp, historyId: Id)
    ensures Project(AssignDeliveryPerson(p, deliveryPersonId, authorId, previousStatus, description, now, historyId))
      == Draft.AssignDeliveryPerson(Project(p), deliveryPersonId, now)
  {
  }
}

=== FILE: package_code.dfy ===
/** The package code value object: a ULID-style identifier of 26 Crockford Base32 characters
    whose first 10 characters encode, big-endian, the millisecond timestamp of its creation. */
module PackageCode {
  import opened Core
  import opened Either
  import opened Arithmetic

  datatype PackageCode = PackageCode(value: string)

  datatype CodeError = InvalidatePackageCodeError

  /** ENCODING: the Crockford Base32 alphabet (no I, L, O, U). */
  const Encoding: string := "0123456789ABCDEFGHJKMNPQRSTVWXYZ"

  /** A base-32 digit, as drawn by `Math.floor(Math.random() * 32)`. */
  type Digit32 = d: nat | d < 32

  /** 32^n. */
  function Pow32(n: nat): (r: nat)
    ensures r >= 1
  {
    if n == 0 then 1 else 32 * Pow32(n - 1)
  }

  /** The alphabet described by ranges: digit `d` is the `d`-th character of ENCODING. */
  function DigitChar(d: Digit32): char {
    if d < 10 then ('0' as int + d) as char
    else if d < 18 then ('A' as int + (d - 10)) as char
    else if d == 18 then 'J'
    else if d == 19 then 'K'
    else if d == 20 then 'M'
    else if d == 21 then 'N'
    else if d < 27 then ('P' as int + (d - 22)) as char
    else ('V' as int + (d - 27)) as char
  }

  lemma EncodingIsDigitChars()
    ensures |Encoding| == 32
    ensures forall d: Digit32 :: Encoding[d] == DigitChar(d)
  {
    assert Encoding == seq(32, (d: int) requires 0 <= d < 32 => DigitChar(d));
  }

  /** The alphabet is in strictly increasing character order, so no character occurs twice. */
  lemma DigitCharIncreasing(i: Digit32, j: Digit32)
    ensures i < j ==> DigitChar(i) < DigitChar(j)
  {
  }

  /** `ENCODING.indexOf(c)`, scanning from position `i`: the first index holding `c`, or -1. */
  function IndexFrom(c: char, i: nat): (r: int)
    requires i <= |Encoding|
    ensures r == -1 || (i <= r < |Encoding| && Encoding[r] == c)
    ensures r == -1 <==> forall k :: i <= k < |Encoding| ==> Encoding[k] != c
    ensures r != -1 ==> forall k :: i <= k < r ==> Encoding[k] != c
    decreases |Encoding| - i
  {
    if i == |Encoding| then -1
    else if Encoding[i] == c then i
    else IndexFrom(c, i + 1)
  }

  function IndexOf(c: char): (r: int)
    ensures -1 <= r < 32
  {
    IndexFrom(c, 0)
  }

  /** Looking up the `d`-th character of the alphabet gives back `d`. */
  lemma IndexOfDigitChar(d: Digit32)
    ensures IndexOf(DigitChar(d)) == d
  {
    EncodingIsDigitChars();
    forall k | 0 <= k < d
      ensures Encoding[k] != DigitChar(d)
    {
      DigitCharIncreasing(k, d);
    }
    assert Encoding[d] == DigitChar(d);
  }

  /** `[0-9A-HJKMNP-TV-Z]`: the character class of the code pattern. */
  predicate InClass(c: char) {
    ('0' <= c <= '9') || ('A' <= c <= 'H') || c == 'J' || c == 'K' || c == 'M' || c == 'N'
    || ('P' <= c <= 'T') || ('V' <= c <= 'Z')
  }

  /** The digit a class character stands for. */
  function ClassDigit(c: char): (d: Digit32)
    requires InClass(c)
    ensures DigitChar(d) == c
  {
    if c <= '9' then c as int - '0' as int
    else if c <= 'H' then c as int - 'A' as int + 10
    else if c == 'J' then 18
    else if c == 'K' then 19
    else if c == 'M' then 20
    else if c == 'N' then 21
    else if c <= 'T' then c as int - 'P' as int + 22
    else c as int - 'V' as int + 27
  }

  /** The character class of the pattern is exactly the ENCODING alphabet. */
  lemma ClassIsAlphabet(c: char)
    ensures InClass(c) <==> c in Encoding
    ensures InClass(c) ==> 0 <= IndexOf(c) < 32
  {
    if InClass(c) {
      IndexOfDigitChar(ClassDigit(c));
      assert Encoding[IndexOf(c)] == c;
    }
    if c in Encoding {
      assert IndexOf(c) >= 0;
      AlphabetChar(c);
    }
  }

  /** `toUpperCase` on ASCII letters; every other character is left alone. */
  function AsciiUpper(c: char): char {
    if 'a' <= c <= 'z' then (c as int - 32) as char else c
  }

  function Upper(s: string): (r: string)
    ensures |r| == |s|
  {
    seq(|s|, i requires 0 <= i < |s| => AsciiUpper(s[i]))
  }

  /** `/^[0-7][0-9A-HJKMNP-TV-Z]{25}$/i`: 26 characters, a leading 0–7, then class characters
      in either case. */
  predicate MatchesPattern(code: string) {
    |code| == 26 && '0' <= code[0] <= '7'
    && forall i :: 1 <= i < 26 ==> InClass(AsciiUpper(code[i]))
  }

  /** `decodeTime`: the loop `time = time * 32 + ENCODING.indexOf(char)`, left to right. */
  function DecodeTime(part: string): int
    decreases |part|
  {
    if part == [] then 0
    else DecodeTime(part[..|part| - 1]) * 32 + IndexOf(part[|part| - 1])
  }

  lemma DecodeTimeSnoc(s: string, c: char)
    ensures DecodeTime(s + [c]) == DecodeTime(s) * 32 + IndexOf(c)
  {
    assert (s + [c])[..|s|] == s;
  }

  /** The ten-iteration loop of `generateULID`: the `n` low base-32 digits of `time`,
      most significant first. */
  function EncodeDigits(time: nat, n: nat): (r: string)
    ensures |r| == n
  {
    if n == 0 then [] else EncodeDigits(time / 32, n - 1) + [Encoding[time % 32]]
  }

  /** `generateULID`: ten timestamp characters followed by sixteen random ones. */
  function GenerateULID(time: Timestamp, random: seq<Digit32>): (r: string)
    requires |random| == 16
    ensures |r| == 26
    ensures r[..10] == EncodeDigits(time, 10)
    ensures forall i :: 0 <= i < 16 ==> r[10 + i] == Encoding[random[i]]
  {
    EncodeDigits(time, 10) + seq(16, i requires 0 <= i < 16 => Encoding[random[i]])
  }

  /** `validate`: the pattern matches and the embedded timestamp is not after `now`. */
  predicate Validate(code: string, now: Timestamp) {
    if !MatchesPattern(code) then false
    else DecodeTime(Upper(code[..10])) <= now
  }

  /** `create`: validates the given code (or a freshly generated one) and stores it upper-cased.
      `clock` and `random` feed the generator; `now` is the reading the validation compares with. */
  function Create(value: Option<string>, clock: Timestamp, random: seq<Digit32>, now: Timestamp)
    : (r: Either<CodeError, PackageCode>)
    requires |random| == 16
    ensures var code := value.GetOr(GenerateULID(clock, random));
            && (r.IsRight() <==> Validate(code, now))
            && (r.IsRight() ==> r.right.value == Upper(code))
    ensures r.IsLeft() ==> r.left == InvalidatePackageCodeError
  {
    var code := value.GetOr(GenerateULID(clock, random));
    if !Validate(code, now) then Left(InvalidatePackageCodeError)
    else Right(PackageCode(Upper(code)))
  }

  /** `generate`: `create` without a value. */
  function Generate(clock: Timestamp, random: seq<Digit32>, now: Timestamp)
    : (r: Either<CodeError, PackageCode>)
    requires |random| == 16
    ensures r.IsRight() <==> Validate(GenerateULID(clock, random), now)
    ensures r.IsRight() ==> r.right.value == Upper(GenerateULID(clock, random))
    ensures r.IsLeft() ==> r.left == InvalidatePackageCodeError
  {
    Create(None, clock, random, now)
  }

  // ---------------------------------------------------------------------------------------
  // Arithmetic of the base-32 timestamp

  /** The low digit and the remaining `n` digits of `t` recombine into its `n + 1` low digits. */
  lemma ModSplit(t: nat, p: nat)
    requires p >= 1
    ensures (t / 32 % p) * 32 + t % 32 == t % (32 * p)
  {
    var q := t / 32;
    var r := t % 32;
    var a := q / p;
    var b := q % p;
    assert q == p * a + b;
    assert t == 32 * q + r;
    assert t == (32 * p) * a + (b * 32 + r);
    assert b * 32 + r < 32 * p by {
      assert b <= p - 1;
      assert b * 32 <= (p - 1) * 32;
    }
    ModUnique(t, 32 * p, a, b * 32 + r);
  }

  /** Round trip: decoding the `n` characters the generator writes for `time` gives `time`
      reduced to `n` base-32 digits. */
  lemma {:induction false} DecodeEncode(time: nat, n: nat)
    ensures DecodeTime(EncodeDigits(time, n)) == time % Pow32(n)
  {
    if n > 0 {
      EncodingIsDigitChars();
      var d: Digit32 := time % 32;
      DecodeTimeSnoc(EncodeDigits(time / 32, n - 1), Encoding[d]);
      IndexOfDigitChar(d);
      DecodeEncode(time / 32, n - 1);
      ModSplit(time, Pow32(n - 1));
    }
  }

  /** For 0 <= t < 32^10, decoding the generated timestamp prefix yields t exactly. */
  lemma TimestampRoundTrip(time: nat)
    requires time < Pow32(10)
    ensures DecodeTime(EncodeDigits(time, 10)) == time
  {
    DecodeEncode(time, 10);
    ModUnique(time, Pow32(10), 0, time);
  }

  lemma BoundStep(x: int, lead: int, p: int, digit: int)
    requires lead >= 1 && p >= 1 && 0 <= x <= lead * p - 1 && 0 <= digit < 32
    ensures 0 <= x * 32 + digit < lead * (32 * p)
  {
    assert x * 32 <= (lead * p - 1) * 32;
    assert lead * (32 * p) == (lead * p) * 32;
  }

  /** A string over the alphabet decodes below (leading digit + 1) * 32^(n-1). */
  lemma DecodeBound(s: string)
    requires |s| >= 1
    requires forall i :: 0 <= i < |s| ==> IndexOf(s[i]) >= 0
    ensures IndexOf(s[0]) * Pow32(|s| - 1) <= DecodeTime(s) < (IndexOf(s[0]) + 1) * Pow32(|s| - 1)
  {
    DecodeBoundAt(s, IndexOf(s[0]), Pow32(|s| - 1));
  }

  /** `DecodeBound` with the leading digit and the power of 32 named, by induction on the length. */
  lemma {:induction false} DecodeBoundAt(s: string, lead: nat, p: nat)
    requires |s| >= 1
    requires forall i :: 0 <= i < |s| ==> IndexOf(s[i]) >= 0
    requires lead == IndexOf(s[0]) && p == Pow32(|s| - 1)
    ensures lead * p <= DecodeTime(s) < (lead + 1) * p
    decreases |s|
  {
    if |s| == 1 {
      assert s[..0] == [];
      assert DecodeTime(s) == lead;
      assert p == 1;
      assert lead * p == lead * 1 && (lead + 1) * p == (lead + 1) * 1;
    } else {
      var init, c := s[..|s| - 1], s[|s| - 1];
      DropLastInAlphabet(s, init);
      var p' := Pow32(|init| - 1);
      assert p == 32 * p';
      DecodeBoundAt(init, lead, p');
      DecodeTimeSnoc(init, c);
      assert DecodeTime(s) == DecodeTime(init) * 32 + IndexOf(c);
      DecodeBoundStep(DecodeTime(init), DecodeTime(s), lead, p', p, IndexOf(c));
      assert lead * p <= DecodeTime(s) < (lead + 1) * p;
    }
  }

  /** Dropping the last character keeps the first one and keeps the string in the alphabet. */
  lemma DropLastInAlphabet(s: string, init: string)
    requires |s| >= 2 && init == s[..|s| - 1]
    requires forall i :: 0 <= i < |s| ==> IndexOf(s[i]) >= 0
    ensures s == init + [s[|s| - 1]]
    ensures init[0] == s[0]
    ensures forall i :: 0 <= i < |init| ==> IndexOf(init[i]) >= 0
  {
    assert forall i :: 0 <= i < |init| ==> init[i] == s[i];
  }

  lemma DecodeBoundStep(before: int, after: int, lead: nat, p: nat, q: nat, digit: int)
    requires p >= 1 && q == 32 * p && lead * p <= before < (lead + 1) * p && 0 <= digit < 32
    requires after == before * 32 + digit
    ensures lead * q <= after < (lead + 1) * q
  {
    BoundStep(before, lead + 1, p, digit);
    assert lead * q == (lead * p) * 32;
  }

  /** Under the pattern, the upper-cased timestamp prefix is spelled in the alphabet and
      starts with the same digit 0-7. */
  lemma PatternPrefix(code: string)
    requires MatchesPattern(code)
    ensures var prefix := Upper(code[..10]);
      && (forall i :: 0 <= i < 10 ==> IndexOf(prefix[i]) >= 0)
      && prefix[0] == code[0]
      && IndexOf(code[0]) < 8
  {
    var prefix := Upper(code[..10]);
    forall i | 0 <= i < 10
      ensures IndexOf(prefix[i]) >= 0
    {
      if i == 0 {
        ClassIsAlphabet(code[0]);
      } else {
        ClassIsAlphabet(AsciiUpper(code[i]));
      }
    }
    IndexOfDigitChar(ClassDigit(code[0]));
  }

  /** The full acceptance rule: 26 characters, a leading 0-7, the rest in the alphabet in either
      case, and an embedded timestamp that is not after `now`. */
  lemma ValidateSpec(code: string, now: Timestamp)
    ensures Validate(code, now) <==>
      && |code| == 26
      && '0' <= code[0] <= '7'
      && (forall i :: 1 <= i < 26 ==> AsciiUpper(code[i]) in Encoding)
      && DecodeTime(Upper(code[..10])) <= now
  {
    forall i | 1 <= i < |code| {
      ClassIsAlphabet(AsciiUpper(code[i]));
    }
  }

  /** Every accepted code embeds a timestamp below 8 * 32^9 = 2^48. */
  lemma AcceptedTimestampBound(code: string, now: Timestamp)
    requires Validate(code, now)
    ensures 0 <= DecodeTime(Upper(code[..10])) < 8 * Pow32(9) == 0x1_0000_0000_0000
  {
    Pow32Values();
    PatternPrefix(code);
    DecodeBound(Upper(code[..10]));
    MulLe(IndexOf(code[0]) + 1, 8, Pow32(9));
  }

  /** 32^9 = 2^45 and 32^10 = 2^50. */
  lemma Pow32Values()
    ensures Pow32(9) == 0x2000_0000_0000
    ensures Pow32(10) == 0x4_0000_0000_0000
  {
    assert Pow32(2) == 1024;
    assert Pow32(4) == 1024 * 1024;
    assert Pow32(6) == 1024 * 1024 * 1024;
    assert Pow32(8) == 1024 * 1024 * 1024 * 1024;
  }


  /** Rejects every code whose embedded timestamp lies after `now`. */
  lemma FutureCodeRejected(code: string, now: Timestamp)
    requires |code| >= 10 && DecodeTime(Upper(code[..10])) > now
    ensures !Validate(code, now)
    ensures forall clock, random: seq<Digit32> | |random| == 16 ::
      Create(Some(code), clock, random, now) == Left(InvalidatePackageCodeError)
  {
  }

  /** The first character of a code is one of 0-7 exactly when it is an alphabet digit below 8. */
  lemma LeadingDigit(c: char)
    requires IndexOf(c) >= 0
    ensures '0' <= c <= '7' <==> IndexOf(c) < 8
  {
    EncodingIsDigitChars();
    var d: Digit32 := IndexOf(c);
    assert DigitChar(d) == c;
  }

  /** An alphabet character is an upper-case class character. */
  lemma AlphabetChar(c: char)
    requires IndexOf(c) >= 0
    ensures c == DigitChar(IndexOf(c))
    ensures AsciiUpper(c) == c && InClass(c)
  {
    var d: Digit32 := IndexOf(c);
    assert Encoding[d] == c;
    EncodingIsDigitChars();
    DigitCharInClass(d);
  }

  /** Every digit is spelled by an upper-case class character. */
  lemma DigitCharInClass(d: Digit32)
    ensures AsciiUpper(DigitChar(d)) == DigitChar(d) && InClass(DigitChar(d))
  {
  }

  /** Upper-casing leaves alphabet characters alone. */
  lemma UpperOfAlphabet(s: string)
    requires forall i :: 0 <= i < |s| ==> IndexOf(s[i]) >= 0
    ensures Upper(s) == s
  {
    forall i | 0 <= i < |s|
      ensures AsciiUpper(s[i]) == s[i]
    {
      AlphabetChar(s[i]);
    }
  }

  /** Every character of a generated identifier is in the alphabet. */
  lemma GeneratedInAlphabet(time: Timestamp, random: seq<Digit32>)
    requires |random| == 16
    ensures forall i :: 0 <= i < 26 ==> IndexOf(GenerateULID(time, random)[i]) >= 0
  {
    EncodingIsDigitChars();
    var code := GenerateULID(time, random);
    forall i | 0 <= i < 26
      ensures IndexOf(code[i]) >= 0
    {
      if i < 10 {
        EncodedInAlphabet(time, 10, i);
        assert code[i] == code[..10][i];
      } else {
        IndexOfDigitChar(random[i - 10]);
      }
    }
  }

  lemma {:induction false} EncodedInAlphabet(time: nat, n: nat, i: nat)
    requires i < n
    ensures IndexOf(EncodeDigits(time, n)[i]) >= 0
  {
    EncodingIsDigitChars();
    if i == n - 1 {
      IndexOfDigitChar(time % 32);
    } else {
      EncodedInAlphabet(time / 32, n - 1, i);
    }
  }

  /** Argument-less `create` succeeds exactly when the clock, reduced to ten base-32 digits,
      is below 2^48 and not after the validation reading; the stored code then embeds that
      reduced clock. In particular it succeeds whenever clock < 2^48 and clock <= now. */
  lemma GenerateSucceeds(clock: Timestamp, random: seq<Digit32>, now: Timestamp)
    requires |random| == 16
    ensures Generate(clock, random, now).IsRight() <==>
      clock % Pow32(10) < 8 * Pow32(9) && clock % Pow32(10) <= now
    ensures Generate(clock, random, now).IsRight() ==>
      DecodeTime(Generate(clock, random, now).right.value[..10]) == clock % Pow32(10)
    ensures clock < 0x1_0000_0000_0000 && clock <= now ==> Generate(clock, random, now).IsRight()
  {
    var code := GenerateULID(clock, random);
    GeneratedInAlphabet(clock, random);
    UpperOfAlphabet(code);
    assert Upper(code[..10]) == code[..10] by {
      UpperOfAlphabet(code[..10]);
    }
    DecodeEncode(clock, 10);
    DecodeBound(code[..10]);
    assert code[..10][0] == code[0];
    LeadingDigit(code[0]);
    forall i | 1 <= i < 26
      ensures InClass(AsciiUpper(code[i]))
    {
      AlphabetChar(code[i]);
    }
    MulLe(IndexOf(code[0]) + 1, 8, Pow32(9));
    MulLe(8, IndexOf(code[0]), Pow32(9));
    Pow32Values();
    if clock < 0x1_0000_0000_0000 {
      ModUnique(clock, Pow32(10), 0, clock);
    }
  }

  /** Re-creating a code from its stored value at the same `now` gives back the same code. */
  lemma RecreateStored(value: Option<string>, clock: Timestamp, random: seq<Digit32>, now: Timestamp,
                       clock': Timestamp, random': seq<Digit32>)
    requires |random| == 16 && |random'| == 16
    requires Create(value, clock, random, now).IsRight()
    ensures var stored := Create(value, clock, random, now).right;
      Create(Some(stored.value), clock', random', now) == Right(stored)
  {
    var code := value.GetOr(GenerateULID(clock, random));
    var up := Upper(code);
    assert Upper(up) == up;
    assert up[..10] == Upper(code[..10]);
    assert Upper(up[..10]) == up[..10];
    assert MatchesPattern(up) by {
      assert up[0] == code[0];
    }
  }

  /** Codes of the wrong length are rejected. */
  lemma WrongLengthRejected(code: string, now: Timestamp)
    requires |code| != 26
    ensures !Validate(code, now)
  {
  }

  /** A character outside the alphabet after the first position is rejected, whatever its case:
      I, L, O, U and '@' among them. */
  lemma ForeignCharacterRejected(code: string, i: nat, now: Timestamp)
    requires 1 <= i < |code|
    requires AsciiUpper(code[i]) !in Encoding
    ensures !Validate(code, now)
    ensures forall c :: c in "ILOUilou@" ==> AsciiUpper(c) !in Encoding
  {
    ClassIsAlphabet(AsciiUpper(code[i]));
    forall c | c in "ILOUilou@"
      ensures AsciiUpper(c) !in Encoding
    {
      ClassIsAlphabet(AsciiUpper(c));
    }
  }

  /** The rejections the code tests exercise. */
  lemma TestedRejections(now: Timestamp)
    ensures !Validate("01HZYZ9Z7X6KQJ", now)
    ensures !Validate("dfdsgDGSD5343", now)
    ensures !Validate("01HZYZ9Z7X6KQJ@#$%^&*()123", now)
  {
    ForeignCharacterRejected("01HZYZ9Z7X6KQJ@#$%^&*()123", 14, now);
  }
}

=== FILE: package_history.dfy ===
/** The package history entity: one audit record of a status change or an assignment. */
module PackageHistory {
  import opened Core
  import opened PackageStatus

  /** PackageHistoryProps with the entity id alongside. `fromStatus`, `deliveryPersonId` and
      `description` are nullable; `packageId`, `toStatus` and `authorId` are required. */
  datatype PackageHistory = PackageHistory(
    id: Id,
    packageId: Id,
    fromStatus: Option<Status>,
    toStatus: Status,
    authorId: Id,
    deliveryPersonId: Option<Id>,
    description: Option<string>,
    createdAt: Timestamp)

  /** The properties `create` accepts: `createdAt` may be omitted. */
  datatype HistoryProps = HistoryProps(
    packageId: Id,
    fromStatus: Option<Status>,
    toStatus: Status,
    authorId: Id,
    deliveryPersonId: Option<Id>,
    description: Option<string>,
    createdAt: Option<Timestamp>)

  /** The properties a history carries, with `createdAt` as stored. */
  function PropsOf(h: PackageHistory): HistoryProps {
    HistoryProps(h.packageId, h.fromStatus, h.toStatus, h.authorId, h.deliveryPersonId,
                 h.description, Some(h.createdAt))
  }

  /** `PackageHistory.create(props, id?)`: the id is the given one or `freshId` (a new
      UniqueEntityId); `createdAt` is the supplied one or `now`. */
  function Create(props: HistoryProps, id: Option<Id>, freshId: Id, now: Timestamp): (h: PackageHistory)
    ensures PropsOf(h) == props.(createdAt := Some(h.createdAt))
    ensures props.createdAt.Some? ==> h.createdAt == props.createdAt.value
    ensures props.createdAt.None? ==> h.createdAt == now
    ensures id.Some? ==> h.id == id.value
    ensures id.None? ==> h.id == freshId
  {
    PackageHistory(id.GetOr(freshId), props.packageId, props.fromStatus, props.toStatus,
                   props.authorId, props.deliveryPersonId, props.description,
                   props.createdAt.GetOr(now))
  }

  /** `Entity.equals`: two histories are equal when they are the same entity, i.e. share an id. */
  predicate Equals(a: PackageHistory, b: PackageHistory) {
    a.id == b.id
  }

  /** Round trip: a history built from fully supplied properties hands the same properties back. */
  lemma CreateKeepsProps(props: HistoryProps, id: Option<Id>, freshId: Id, now: Timestamp)
    requires props.createdAt.Some?
    ensures PropsOf(Create(props, id, freshId, now)) == props
  {
  }

  /** Two histories built from identical fields but with different fresh ids are not equal:
      equality is by entity identity, not by value. */
  lemma IdenticalFieldsNotEqual(props: HistoryProps, freshA: Id, freshB: Id, now: Timestamp)
    requires freshA != freshB
    ensures PropsOf(Create(props, None, freshA, now)) == PropsOf(Create(props, None, freshB, now))
    ensures !Equals(Create(props, None, freshA, now), Create(props, None, freshB, now))
  {
  }
}

=== FILE: package_status.dfy ===
/** The package status value object: ten named states and the transition table between them. */
module PackageStatus {
  import opened Either

  datatype Status =
    | Pending
    | AwaitingPickup
    | PickedUp
    | AtDistributionCenter
    | InTransit
    | OutForDelivery
    | Delivered
    | FailedDelivery
    | Returned
    | Canceled

  /** The only error of this value object (InvalidatePackageStatusError). */
  datatype StatusError = InvalidatePackageStatusError

  /** The wire name of a status, as stored in `props.value`. */
  function Name(s: Status): string {
    match s
    case Pending => "pending"
    case AwaitingPickup => "awaiting_pickup"
    case PickedUp => "picked_up"
    case AtDistributionCenter => "at_distribution_center"
    case InTransit => "in_transit"
    case OutForDelivery => "out_for_delivery"
    case Delivered => "delivered"
    case FailedDelivery => "failed_delivery"
    case Returned => "returned"
    case Canceled => "canceled"
  }

  /** VALID_STATUSES, in the order the source lists them. */
  const ValidStatuses: seq<Status> := [
    Pending, AwaitingPickup, PickedUp, AtDistributionCenter, InTransit,
    OutForDelivery, Delivered, FailedDelivery, Returned, Canceled
  ]

  /** VALID_TRANSITIONS: the row of statuses reachable in one step. */
  function ValidTransitions(s: Status): seq<Status> {
    match s
    case Pending => [AwaitingPickup, Canceled]
    case AwaitingPickup => [PickedUp, Canceled]
    case PickedUp => [AtDistributionCenter, Canceled]
    case AtDistributionCenter => [InTransit, Canceled]
    case InTransit => [OutForDelivery, AtDistributionCenter, Canceled]
    case OutForDelivery => [Delivered, FailedDelivery, Canceled]
    case FailedDelivery => [OutForDelivery, Returned]
    case Delivered => []
    case Returned => []
    case Canceled => []
  }

  /** Where a status sits in VALID_STATUSES: the list names every status. */
  function Position(s: Status): (k: nat)
    ensures k < |ValidStatuses| && ValidStatuses[k] == s
  {
    match s
    case Pending => 0 case AwaitingPickup => 1 case PickedUp => 2
    case AtDistributionCenter => 3 case InTransit => 4 case OutForDelivery => 5
    case Delivered => 6 case FailedDelivery => 7 case Returned => 8 case Canceled => 9
  }

  lemma NamesAreDistinct(a: Status, b: Status)
    ensures Name(a) == Name(b) ==> a == b
  {
  }

  /** `VALID_STATUSES.includes(value)`, scanning the list from position `i`. */
  function Lookup(value: string, i: nat): (r: Either<StatusError, Status>)
    requires i <= |ValidStatuses|
    ensures r.IsRight() ==> Name(r.right) == value
    ensures r.IsLeft() ==> forall k :: i <= k < |ValidStatuses| ==> Name(ValidStatuses[k]) != value
    decreases |ValidStatuses| - i
  {
    if i == |ValidStatuses| then Left(InvalidatePackageStatusError)
    else if Name(ValidStatuses[i]) == value then Right(ValidStatuses[i])
    else Lookup(value, i + 1)
  }

  /** `PackageStatus.create`: succeeds exactly on the ten status names, with the status so named. */
  function Create(value: string): (r: Either<StatusError, Status>)
    ensures r.IsRight() ==> Name(r.right) == value
    ensures r.IsLeft() ==> forall s: Status :: Name(s) != value
    ensures r.IsLeft() ==> r.left == InvalidatePackageStatusError
  {
    var r := Lookup(value, 0);
    if r.IsLeft() then
      assert forall s: Status :: ValidStatuses[Position(s)] == s;
      r
    else r
  }

  /** Round trip: creating a status from its own name gives that status back. */
  lemma CreateName(s: Status)
    ensures Create(Name(s)) == Right(s)
  {
    var r := Create(Name(s));
    if r.IsRight() {
      NamesAreDistinct(r.right, s);
    }
  }

  /** The empty string is not a status. */
  lemma CreateEmptyFails()
    ensures Create("") == Left(InvalidatePackageStatusError)
  {
  }

  /** `canTransitionTo`: `to` is listed in the row of `from`. */
  predicate CanTransitionTo(from: Status, to: Status) {
    to in ValidTransitions(from)
  }

  /** `transitionTo`: the target itself on a legal move, an error on every other pair. */
  function TransitionTo(from: Status, to: Status): (r: Either<StatusError, Status>)
    ensures r.IsRight() <==> CanTransitionTo(from, to)
    ensures r.IsRight() ==> r.right == to
    ensures r.IsLeft() ==> r.left == InvalidatePackageStatusError
  {
    if !CanTransitionTo(from, to) then Left(InvalidatePackageStatusError) else Right(to)
  }

  predicate IsPending(s: Status) { s == Pending }
  predicate IsAwaitingPickup(s: Status) { s == AwaitingPickup }
  predicate IsPickedUp(s: Status) { s == PickedUp }
  predicate IsAtDistributionCenter(s: Status) { s == AtDistributionCenter }
  predicate IsInTransit(s: Status) { s == InTransit }
  predicate IsOutForDelivery(s: Status) { s == OutForDelivery }
  predicate IsDelivered(s: Status) { s == Delivered }
  predicate IsFailedDelivery(s: Status) { s == FailedDelivery }
  predicate IsReturned(s: Status) { s == Returned }
  predicate IsCanceled(s: Status) { s == Canceled }

  /** `isFinalState`: delivered, returned or canceled. */
  predicate IsFinalState(s: Status) {
    IsDelivered(s) || IsReturned(s) || IsCanceled(s)
  }

  /** The ten `is*` answers for one status, in declaration order. */
  function Predicates(s: Status): (r: seq<bool>)
    ensures |r| == 10
    ensures forall i :: 0 <= i < 10 ==> (r[i] <==> ValidStatuses[i] == s)
  {
    [IsPending(s), IsAwaitingPickup(s), IsPickedUp(s), IsAtDistributionCenter(s), IsInTransit(s),
     IsOutForDelivery(s), IsDelivered(s), IsFailedDelivery(s), IsReturned(s), IsCanceled(s)]
  }

  /** For every status exactly one of the ten `is*` predicates holds. */
  lemma ExactlyOnePredicate(s: Status)
    ensures exists i :: 0 <= i < 10 && Predicates(s)[i]
    ensures forall i, j :: 0 <= i < j < 10 && Predicates(s)[i] ==> !Predicates(s)[j]
  {
    assert Predicates(s)[Position(s)];
  }

  /** No status may move to itself. */
  lemma NoSelfLoops(s: Status)
    ensures !CanTransitionTo(s, s)
    ensures TransitionTo(s, s).IsLeft()
  {
  }

  /** The final states are exactly the statuses whose row is empty, so nothing leaves them. */
  lemma FinalIffEmptyRow(s: Status)
    ensures IsFinalState(s) <==> ValidTransitions(s) == []
    ensures IsFinalState(s) <==> forall t: Status :: !CanTransitionTo(s, t)
  {
    if !IsFinalState(s) {
      assert CanTransitionTo(s, ValidTransitions(s)[0]);
    }
  }

  /** `canceled` is one step away from every non-final status except failed_delivery,
      whose only moves are out_for_delivery and returned. */
  lemma CancelReachability(s: Status)
    ensures !IsFinalState(s) && s != FailedDelivery ==> CanTransitionTo(s, Canceled)
    ensures CanTransitionTo(FailedDelivery, s) <==> s == OutForDelivery || s == Returned
  {
  }

  /** The transitions the status tests single out. */
  lemma TestedTransitions()
    ensures CanTransitionTo(InTransit, AtDistributionCenter)
    ensures CanTransitionTo(FailedDelivery, OutForDelivery)
    ensures !CanTransitionTo(Pending, Delivered)
    ensures !CanTransitionTo(Delivered, Pending)
    ensures TransitionTo(Pending, AwaitingPickup) == Right(AwaitingPickup)
  {
  }

  /** Applies `transitionTo` along `path`, stopping at the first illegal move. */
  function ApplyPath(s: Status, path: seq<Status>): Either<StatusError, Status>
    decreases |path|
  {
    if path == [] then Right(s)
    else match TransitionTo(s, path[0])
      case Left(e) => Left(e)
      case Right(t) => ApplyPath(t, path[1..])
  }

  /** A path followed from `s` ends in `t` and never touches `pending` after the start. */
  lemma {:induction false} NothingLeadsBackToPending(s: Status, path: seq<Status>)
    requires |path| > 0
    requires ApplyPath(s, path).IsRight()
    ensures ApplyPath(s, path).right != Pending
    ensures forall k :: 0 <= k < |path| ==> path[k] != Pending
    decreases |path|
  {
    assert CanTransitionTo(s, path[0]);
    if |path| > 1 {
      NothingLeadsBackToPending(path[0], path[1..]);
      assert forall k :: 1 <= k < |path| ==> path[k] == path[1..][k - 1];
    }
  }

  /** Once a final state is reached, every non-empty path from it fails. */
  lemma FinalStatesAbsorb(s: Status, path: seq<Status>)
    requires IsFinalState(s) && |path| > 0
    ensures ApplyPath(s, path) == Left(InvalidatePackageStatusError)
  {
  }

  /** Every status reaches a final state in at most one legal step. */
  lemma EveryStatusCanFinish(s: Status) returns (path: seq<Status>)
    ensures |path| <= 1
    ensures ApplyPath(s, path).IsRight() && IsFinalState(ApplyPath(s, path).right)
  {
    if IsFinalState(s) {
      path := [];
    } else if s == FailedDelivery {
      path := [Returned];
    } else {
      path := [Canceled];
    }
  }

  /** The regular delivery route from `pending` to `delivered` is legal step by step. */
  lemma DeliveryRoute()
    ensures ApplyPath(Pending, [AwaitingPickup, PickedUp, AtDistributionCenter, InTransit,
                                OutForDelivery, Delivered]) == Right(Delivered)
  {
  }
}

=== FILE: post_code.dfy ===
/** The PostCode value object: a second, identically behaving wrapper of the CEP pattern. */
module PostCode {
  import opened Either
  import CepPattern

  datatype PostCode = PostCode(value: string)

  datatype PostCodeError = InvalidaPostCode

  predicate Validate(postCode: string) {
    CepPattern.Matches(postCode)
  }

  /** `PostCode.create`: fails exactly when `validate` does; stores the input unchanged. */
  function Create(value: string): (r: Either<PostCodeError, PostCode>)
    ensures r.IsRight() <==> CepPattern.Shape(value)
    ensures r.IsLeft() ==> r.left == InvalidaPostCode
    ensures r.IsRight() ==> r.right.value == value
  {
    CepPattern.MatchesIffShape(value);
    if !Validate(value) then Left(InvalidaPostCode) else Right(PostCode(value))
  }
}

=== FILE: postal_code.dfy ===
/** The PostalCode value object: a CEP string kept exactly as given. */
module PostalCode {
  import opened Either
  import CepPattern

  datatype PostalCode = PostalCode(value: string)

  datatype PostalCodeError = InvalidPostalCode

  predicate Validate(postalCode: string) {
    CepPattern.Matches(postalCode)
  }

  /** `PostalCode.create`: fails exactly when `validate` does; stores the input unchanged, with
      no hyphen added or removed. */
  function Create(value: string): (r: Either<PostalCodeError, PostalCode>)
    ensures r.IsRight() <==> CepPattern.Shape(value)
    ensures r.IsLeft() ==> r.left == InvalidPostalCode
    ensures r.IsRight() ==> r.right.value == value
  {
    CepPattern.MatchesIffShape(value);
    if !Validate(value) then Left(InvalidPostalCode) else Right(PostalCode(value))
  }
}

=== FILE: use_cases.dfy ===
/** The application use cases that drive a package: registering it, assigning it to a delivery
    person, and recording a history entry. Repositories become maps and sets read in sequence; every
    repository write is logged so that "written exactly once, and only on success" can be stated. */
module UseCases {
  import opened Core
  import opened Either
  import PackageStatus
  import PackageCode
  import History = PackageHistory
  import Aggregate = PackageAggregate

  /** A repository write. */
  datatype Write =
    | PackageRegisteredWrite(packageId: Id)
    | PackageUpdatedWrite(packageId: Id)
    | HistoryRegisteredWrite(historyId: Id)

  /** The repositories the use cases read and write. People are known only by id. */
  datatype Repos = Repos(
    admins: set<Id>,
    deliveryPeople: set<Id>,
    recipients: set<Id>,
    packages: map<Id, Aggregate.Package>,
    histories: seq<History.PackageHistory>,
    writes: seq<Write>)

  /** The errors a use case returns. */
  datatype UseCaseError =
    | ResourceNotFoundError(resource: string)
    | StatusError(statusError: PackageStatus.StatusError)
    | CodeError(codeError: PackageCode.CodeError)

  /** A successful use case: the repositories afterwards and the entity it returns. */
  datatype Saved<+T> = Saved(repos: Repos, value: T)

  /** JavaScript truthiness of an optional id string: null and "" are both falsy. */
  predicate Truthy(id: Option<Id>) {
    id.Some? && id.value != ""
  }

  // ---------------------------------------------------------------------------------------
  // register-package

  datatype RegisterPackageRequest = RegisterPackageRequest(
    recipientId: Id,
    name: string,
    recipientAddress: string,
    deliveryPersonId: Option<Id>,
    authorId: Id)

  /** `RegisterPackage.execute`. The delivery person is looked up only for a truthy id, and the
      stored id is that of the person found, or null. `newId` is the fresh package id; `clock`,
      `random` and `now` feed the argument-less `PackageCode.create()`. */
  function RegisterPackage(repos: Repos, req: RegisterPackageRequest, newId: Id, clock: Timestamp,
                           random: seq<PackageCode.Digit32>, now: Timestamp)
    : (r: Either<UseCaseError, Saved<Aggregate.Package>>)
    requires |random| == 16
    ensures req.authorId !in repos.admins ==> r == Left(ResourceNotFoundError("admin"))
    ensures req.authorId in repos.admins && Truthy(req.deliveryPersonId)
            && req.deliveryPersonId.value !in repos.deliveryPeople
            ==> r == Left(ResourceNotFoundError("delivery"))
    ensures req.authorId in repos.admins
            && (Truthy(req.deliveryPersonId) ==> req.deliveryPersonId.value in repos.deliveryPeople)
            && req.recipientId !in repos.recipients
            ==> r == Left(ResourceNotFoundError("recipient"))
    ensures r.IsRight() <==>
            && req.authorId in repos.admins
            && (Truthy(req.deliveryPersonId) ==> req.deliveryPersonId.value in repos.deliveryPeople)
            && req.recipientId in repos.recipients
            && PackageCode.Generate(clock, random, now).IsRight()
    ensures req.authorId in repos.admins
            && (Truthy(req.deliveryPersonId) ==> req.deliveryPersonId.value in repos.deliveryPeople)
            && req.recipientId in repos.recipients
            && PackageCode.Generate(clock, random, now).IsLeft()
            ==> r == Left(CodeError(PackageCode.InvalidatePackageCodeError))
    ensures r.IsRight() ==>
      var p := r.right.value;
      && p.id == newId
      && p.status == PackageStatus.Pending
      && p.code == PackageCode.Generate(clock, random, now).right
      && p.name == req.name && p.recipientAddress == req.recipientAddress
      && p.recipientId == req.recipientId && p.authorId == req.authorId
      && p.deliveryPersonId == (if Truthy(req.deliveryPersonId) then req.deliveryPersonId else None)
      && p.histories == [] && p.events == []
      && r.right.repos == repos.(packages := repos.packages[newId := p],
                                 writes := repos.writes + [PackageRegisteredWrite(newId)])
  {
    var authorFound := req.authorId in repos.admins;
    var deliveryPerson: Option<Id> :=
      if Truthy(req.deliveryPersonId) && req.deliveryPersonId.value in repos.deliveryPeople
      then req.deliveryPersonId else None;
    var recipientFound := req.recipientId in repos.recipients;
    if !authorFound then Left(ResourceNotFoundError("admin"))
    else if deliveryPerson.None? && Truthy(req.deliveryPersonId) then Left(ResourceNotFoundError("delivery"))
    else if !recipientFound then Left(ResourceNotFoundError("recipient"))
    else
      match PackageCode.Generate(clock, random, now)
      case Left(e) => Left(CodeError(e))
      case Right(code) =>
        PackageStatus.CreateName(PackageStatus.Pending);
        match PackageStatus.Create("pending")
        case Left(e) => Left(StatusError(e))
        case Right(status) =>
          var p := Aggregate.Create(newId, req.name, req.recipientId, req.recipientAddress, status,
                                    code, deliveryPerson, req.authorId, now);
          Right(Saved(repos.(packages := repos.packages[newId := p],
                             writes := repos.writes + [PackageRegisteredWrite(newId)]), p))
  }

  /** A null or empty delivery-person id never causes an error, and is stored as null. */
  lemma NoDeliveryPersonNeverFails(repos: Repos, req: RegisterPackageRequest, newId: Id, clock: Timestamp,
                                   random: seq<PackageCode.Digit32>, now: Timestamp)
    requires |random| == 16
    requires !Truthy(req.deliveryPersonId)
    ensures RegisterPackage(repos, req, newId, clock, random, now) != Left(ResourceNotFoundError("delivery"))
    ensures RegisterPackage(repos, req, newId, clock, random, now).IsRight() ==>
      RegisterPackage(repos, req, newId, clock, random, now).right.value.deliveryPersonId.None?
  {
  }

  /** Registering writes the package repository exactly once on success and never on failure:
      the write log grows by one entry or the repositories are not returned at all. */
  lemma RegisterWritesOnce(repos: Repos, req: RegisterPackageRequest, newId: Id, clock: Timestamp,
                           random: seq<PackageCode.Digit32>, now: Timestamp)
    requires |random| == 16
    ensures var r := RegisterPackage(repos, req, newId, clock, random, now);
      r.IsRight() ==>
        && |r.right.repos.writes| == |repos.writes| + 1
        && r.right.repos.writes[|repos.writes|] == PackageRegisteredWrite(newId)
        && newId in r.right.repos.packages && r.right.repos.packages[newId] == r.right.value
  {
  }

  // ---------------------------------------------------------------------------------------
  // assign-package-to-a-delivery-person

  datatype AssignRequest = AssignRequest(
    packageId: Id,
    deliveryPersonId: Id,
    authorId: Id,
    description: Option<string>)

  /** `AssignPackageToADeliveryPerson.execute`: look the three resources up, snapshot the current
      status, move to awaiting_pickup, then assign. `statusHistoryId` and `assignHistoryId` are
      the fresh ids of the two histories the package records. */
  function AssignPackage(repos: Repos, req: AssignRequest, now: Timestamp,
                         statusHistoryId: Id, assignHistoryId: Id)
    : (r: Either<UseCaseError, Saved<Aggregate.Package>>)
    ensures req.authorId !in repos.admins ==> r == Left(ResourceNotFoundError("admin"))
    ensures req.authorId in repos.admins && req.deliveryPersonId !in repos.deliveryPeople
            ==> r == Left(ResourceNotFoundError("delivery"))
    ensures req.authorId in repos.admins && req.deliveryPersonId in repos.deliveryPeople
            && req.packageId !in repos.packages
            ==> r == Left(ResourceNotFoundError("package"))
    ensures req.authorId in repos.admins && req.deliveryPersonId in repos.deliveryPeople
            && req.packageId in repos.packages && repos.packages[req.packageId].status != PackageStatus.Pending
            ==> r == Left(StatusError(PackageStatus.InvalidatePackageStatusError))
    ensures r.IsRight() <==>
            req.authorId in repos.admins && req.deliveryPersonId in repos.deliveryPeople
            && req.packageId in repos.packages && repos.packages[req.packageId].status == PackageStatus.Pending
    ensures r.IsRight() ==>
      var p := repos.packages[req.packageId];
      var q := r.right.value;
      && q.status == PackageStatus.AwaitingPickup
      && q.deliveryPersonId == Some(req.deliveryPersonId)
      && q.id == p.id && q.code == p.code && q.name == p.name && q.recipientId == p.recipientId
      && q.updatedAt == Some(now)
      && q.(status := p.status, deliveryPersonId := p.deliveryPersonId, updatedAt := p.updatedAt,
            histories := p.histories, events := p.events) == p
      && r.right.repos == repos.(packages := repos.packages[req.packageId := q],
                                 writes := repos.writes + [PackageUpdatedWrite(req.packageId)])
  {
    if req.authorId !in repos.admins then Left(ResourceNotFoundError("admin"))
    else if req.deliveryPersonId !in repos.deliveryPeople then Left(ResourceNotFoundError("delivery"))
    else if req.packageId !in repos.packages then Left(ResourceNotFoundError("package"))
    else
      var p := repos.packages[req.packageId];
      PackageStatus.CreateName(p.status);
      PackageStatus.CreateName(PackageStatus.AwaitingPickup);
      OnlyPendingAwaitsPickup(p.status);
      match PackageStatus.Create(PackageStatus.Name(p.status))
      case Left(e) => Left(StatusError(e))
      case Right(previous) =>
        match PackageStatus.Create("awaiting_pickup")
        case Left(e) => Left(StatusError(e))
        case Right(target) =>
          match Aggregate.UpdateStatus(p, target, req.authorId, now, statusHistoryId)
          case Left(e) => Left(StatusError(e))
          case Right(moved) =>
            var q := Aggregate.AssignDeliveryPerson(moved, req.deliveryPersonId, req.authorId, previous,
                                                    req.description, now, assignHistoryId);
            Right(Saved(repos.(packages := repos.packages[req.packageId := q],
                               writes := repos.writes + [PackageUpdatedWrite(req.packageId)]), q))
  }

  /** awaiting_pickup is reachable in one step from pending and from nothing else. */
  lemma OnlyPendingAwaitsPickup(s: PackageStatus.Status)
    ensures PackageStatus.CanTransitionTo(s, PackageStatus.AwaitingPickup) <==> s == PackageStatus.Pending
  {
  }

  /** A successful assignment grows the package's histories by exactly two: the status change
      pending -> awaiting_pickup, then the assignment, whose previous status is the snapshot taken
      before the move. It raises exactly one assignment event, carrying the second history. */
  lemma AssignRecordsTwoHistories(repos: Repos, req: AssignRequest, now: Timestamp,
                                  statusHistoryId: Id, assignHistoryId: Id)
    requires AssignPackage(repos, req, now, statusHistoryId, assignHistoryId).IsRight()
    ensures var p := repos.packages[req.packageId];
      var q := AssignPackage(repos, req, now, statusHistoryId, assignHistoryId).right.value;
      && |q.histories| == |p.histories| + 2
      && q.histories[..|p.histories|] == p.histories
      && q.histories[|p.histories|].fromStatus == Some(PackageStatus.Pending)
      && q.histories[|p.histories|].toStatus == PackageStatus.AwaitingPickup
      && q.histories[|p.histories| + 1].fromStatus == Some(PackageStatus.Pending)
      && q.histories[|p.histories| + 1].toStatus == PackageStatus.AwaitingPickup
      && q.histories[|p.histories| + 1].deliveryPersonId == Some(req.deliveryPersonId)
      && q.histories[|p.histories| + 1].description == req.description
      && q.events == p.events + [Aggregate.PackageAssigned(q.histories[|p.histories| + 1], p.id)]
  {
    var p := repos.packages[req.packageId];
    PackageStatus.CreateName(p.status);
    PackageStatus.CreateName(PackageStatus.AwaitingPickup);
    var moved := Aggregate.UpdateStatus(p, PackageStatus.AwaitingPickup, req.authorId, now, statusHistoryId).right;
    var q := AssignPackage(repos, req, now, statusHistoryId, assignHistoryId).right.value;
    assert q == Aggregate.AssignDeliveryPerson(moved, req.deliveryPersonId, req.authorId, PackageStatus.Pending,
                                               req.description, now, assignHistoryId);
    assert q.histories[..|moved.histories|] == moved.histories;
    assert q.histories[..|p.histories|] == moved.histories[..|p.histories|];
  }

  /** Reassignment: a pending package that already has a delivery person gets the new one. */
  lemma ReassignReplacesDeliveryPerson(repos: Repos, req: AssignRequest, now: Timestamp,
                                       statusHistoryId: Id, assignHistoryId: Id)
    requires req.authorId in repos.admins && req.deliveryPersonId in repos.deliveryPeople
    requires req.packageId in repos.packages
    requires repos.packages[req.packageId].status == PackageStatus.Pending
    requires repos.packages[req.packageId].deliveryPersonId.Some?
    ensures AssignPackage(repos, req, now, statusHistoryId, assignHistoryId).IsRight()
    ensures AssignPackage(repos, req, now, statusHistoryId, assignHistoryId).right.value.deliveryPersonId
            == Some(req.deliveryPersonId)
  {
  }

  // ---------------------------------------------------------------------------------------
  // register-package-history

  /** The tail both versions share: build the history and register it. */
  function RecordHistory(repos: Repos, data: History.HistoryProps, freshId: Id, now: Timestamp)
    : (r: Saved<History.PackageHistory>)
    ensures History.PropsOf(r.value) == data.(createdAt := Some(r.value.createdAt))
    ensures data.createdAt.Some? ==> r.value.createdAt == data.createdAt.value
    ensures r.repos == repos.(histories := repos.histories + [r.value],
                              writes := repos.writes + [HistoryRegisteredWrite(r.value.id)])
  {
    var h := History.Create(data, None, freshId, now);
    Saved(repos.(histories := repos.histories + [h],
                 writes := repos.writes + [HistoryRegisteredWrite(h.id)]), h)
  }

  /** `RegisterPackageHistoryUseCase.execute` as written: the delivery person counts as missing
      whenever none is found, including when no delivery-person id was given at all. */
  function RegisterPackageHistoryAsWritten(repos: Repos, data: History.HistoryProps, freshId: Id, now: Timestamp)
    : (r: Either<UseCaseError, Saved<History.PackageHistory>>)
    ensures data.authorId !in repos.admins ==> r == Left(ResourceNotFoundError("admin"))
    ensures data.authorId in repos.admins
            && (data.deliveryPersonId.None? || data.deliveryPersonId.value !in repos.deliveryPeople)
            ==> r == Left(ResourceNotFoundError("delivery"))
    ensures r.IsRight() <==>
            data.authorId in repos.admins && data.deliveryPersonId.Some?
            && data.deliveryPersonId.value in repos.deliveryPeople && data.packageId in repos.packages
    ensures r.IsRight() ==> r.right == RecordHistory(repos, data, freshId, now)
  {
    var authorFound := data.authorId in repos.admins;
    var deliveryPersonFound := data.deliveryPersonId.Some? && data.deliveryPersonId.value in repos.deliveryPeople;
    var packageFound := data.packageId in repos.packages;
    if !authorFound then Left(ResourceNotFoundError("admin"))
    else if !deliveryPersonFound then Left(ResourceNotFoundError("delivery"))
    else if !packageFound then Left(ResourceNotFoundError("package"))
    else Right(RecordHistory(repos, data, freshId, now))
  }

  /** `RegisterPackageHistoryUseCase.execute` as its tests expect it: a null delivery person is
      allowed, and only a given but unknown one is an error (the rule `register-package` uses). */
  function RegisterPackageHistory(repos: Repos, data: History.HistoryProps, freshId: Id, now: Timestamp)
    : (r: Either<UseCaseError, Saved<History.PackageHistory>>)
    ensures data.authorId !in repos.admins ==> r == Left(ResourceNotFoundError("admin"))
    ensures data.authorId in repos.admins
            && data.deliveryPersonId.Some? && data.deliveryPersonId.value !in repos.deliveryPeople
            ==> r == Left(ResourceNotFoundError("delivery"))
    ensures data.authorId in repos.admins
            && (data.deliveryPersonId.Some? ==> data.deliveryPersonId.value in repos.deliveryPeople)
            && data.packageId !in repos.packages
            ==> r == Left(ResourceNotFoundError("package"))
    ensures r.IsRight() <==>
            data.authorId in repos.admins
            && (data.deliveryPersonId.Some? ==> data.deliveryPersonId.value in repos.deliveryPeople)
            && data.packageId in repos.packages
    ensures r.IsRight() ==>
      && r.right.value.packageId == data.packageId && r.right.value.authorId == data.authorId
      && r.right.value.fromStatus == data.fromStatus && r.right.value.toStatus == data.toStatus
      && r.right.value.deliveryPersonId == data.deliveryPersonId
      && r.right.value.description == data.description
      && (data.createdAt.Some? ==> r.right.value.createdAt == data.createdAt.value)
      && r.right.repos.histories == repos.histories + [r.right.value]
      && r.right.repos.writes == repos.writes + [HistoryRegisteredWrite(r.right.value.id)]
  {
    var authorFound := data.authorId in repos.admins;
    var deliveryPersonFound := data.deliveryPersonId.Some? && data.deliveryPersonId.value in repos.deliveryPeople;
    var packageFound := data.packageId in repos.packages;
    if !authorFound then Left(ResourceNotFoundError("admin"))
    else if !deliveryPersonFound && data.deliveryPersonId.Some? then Left(ResourceNotFoundError("delivery"))
    else if !packageFound then Left(ResourceNotFoundError("package"))
    else Right(RecordHistory(repos, data, freshId, now))
  }

  /** The two versions agree whenever a delivery-person id is given, and differ exactly on a null
      one: the written version then always fails (once the admin exists) with
      `ResourceNotFoundError('delivery')`. */
  lemma HistoryVersionsAgree(repos: Repos, data: History.HistoryProps, freshId: Id, now: Timestamp)
    ensures data.deliveryPersonId.Some? ==>
      RegisterPackageHistoryAsWritten(repos, data, freshId, now) == RegisterPackageHistory(repos, data, freshId, now)
    ensures data.deliveryPersonId.None? && data.authorId in repos.admins ==>
      RegisterPackageHistoryAsWritten(repos, data, freshId, now) == Left(ResourceNotFoundError("delivery"))
  {
  }

  /** No transition check is made: any pair of statuses is recorded as given, even one the
      transition table forbids. */
  lemma AnyPairRecorded(repos: Repos, data: History.HistoryProps, freshId: Id, now: Timestamp)
    requires data.authorId in repos.admins && data.packageId in repos.packages
    requires data.deliveryPersonId.None?
    requires data.fromStatus == Some(PackageStatus.Delivered) && data.toStatus == PackageStatus.Pending
    ensures !PackageStatus.CanTransitionTo(data.fromStatus.value, data.toStatus)
    ensures RegisterPackageHistory(repos, data, freshId, now).IsRight()
  {
  }

  /** The test scenario "register package history without delivery person": an existing admin and
      package and a null delivery person. The written version rejects it; the corrected one stores
      a history with a null delivery person, as the test expects. */
  lemma NullDeliveryPersonScenario()
    ensures var repos := Repos({"admin-1"}, {}, {}, map["package-1" := ScenarioPackage()], [], []);
      var data := History.HistoryProps("package-1", Some(PackageStatus.Pending), PackageStatus.Canceled,
                                       "admin-1", None, Some("Package canceled"), Some(1000));
      && RegisterPackageHistoryAsWritten(repos, data, "history-1", 1000) == Left(ResourceNotFoundError("delivery"))
      && RegisterPackageHistory(repos, data, "history-1", 1000).IsRight()
      && RegisterPackageHistory(repos, data, "history-1", 1000).right.value.deliveryPersonId.None?
      && |RegisterPackageHistory(repos, data, "history-1", 1000).right.repos.histories| == 1
  {
  }

  /** A registered package used by the scenario above. */
  function ScenarioPackage(): (p: Aggregate.Package)
    ensures p.id == "package-1" && p.status == PackageStatus.Pending
  {
    Aggregate.Create("package-1", "Books", "recipient-1", "123 Main St", PackageStatus.Pending,
                     PackageCode.PackageCode("01ARZ3NDEKTSV4RRFFQ69G5FAV"), None, "admin-1", 0)
  }
}
